=== FILE: README.md ===
# Customer-support resolution workflow, modelled in Dafny

This project models the core of a customer-support resolution service. A
request arrives as an intent label, a free-text message, a customer id, a
pre-allocated case id, an optional photo and an optional refund amount. The
workflow then does the following:

- It gathers order context for refund requests: an `ORDxxx` reference taken
  from the message, or the customer's most recent delivered order when the
  message names none and a photo is attached.
- It routes the request: to the refund decision, to the handler for the other
  intents, or straight to the end.
- For a refund, it asks an image-classification oracle for a verdict and
  credits the customer's wallet when the verdict is "resolved" with a
  confidence of at least 0.7.
- It records an escalation for a request it cannot settle automatically. There
  are three exceptions, none of which writes an escalation. An order-status or
  delivery request whose message names no order stays "pending". A non-refund
  request from an unknown customer answers "error". A refund without a usable
  photo answers "pending_image".

A second, smaller component manages subscriptions: it lists a customer's
subscriptions, cancels one, and produces a delivery reminder one to three
days ahead.

Everything is pure functions over immutable values. The MongoDB store is a
`Store` value that is threaded through each stage. The store's operations
are functions that return the store after the call. The oracle's decoded
reply is an input to the request. "Now" enters the reminder logic as a
`daysUntil` parameter.

A store fault is modelled as follows. `Store.faults` maps an operation kind
to an error text. An operation kind listed there raises that text on every
call and changes nothing. Because a down operation stays down, the model
decides which `try`/`except` handler each failure reaches.

Modules, one per file:

| file | module | models |
|---|---|---|
| wrappers.dfy | Wrappers | `Option` and the result type `Res` (value or raised error) |
| seqs.dfy | Seqs | first-match search and filtering of sequences |
| records.dfy | Records | customers, orders, payments, subscriptions, escalations, statuses, response templates, verdicts; Python truthiness of images and amounts |
| store.dfy | Store | the store calls the core makes (src/data_handler.py) |
| order_ids.dfy | OrderIds | `_extract_order_id` |
| string_order.dfy | StringOrder | Python string comparison, used for order dates |
| recent_order.dfy | RecentOrder | the most-recent-delivered-order inference |
| oracle.dfy | Oracle | normalising the oracle's reply and the approval rule |
| refund.dfy | Refund | `_validate_refund_with_gemini` |
| workflow.dfy | Workflow | the graph nodes, the router and `process_request` |
| workflow_facts.dfy | WorkflowFacts | properties of whole requests |
| scenarios.dfy | Scenarios | worked requests against a small store |
| subscriptions.dfy | Subscriptions | `SubscriptionManager` |

## Model

| member | source | states |
|---|---|---|
| Seqs.Filter | src/data_handler.py:79-82 | The filtered list holds exactly the matching elements, in their original order: its i-th entry is the i-th match. |
| Store.GetCustomer | src/data_handler.py:64-66 | Raises exactly when customer reads are down. Otherwise the result is present exactly when the id is a key, and then it is that customer's record. |
| Store.GetOrder | src/data_handler.py:84-86 | Raises exactly when order reads are down. Otherwise the result is none exactly when no order has the id; when found, it is the first order in store order with that id. |
| Store.GetOrderPayment | src/data_handler.py:101-103 | Raises exactly when payment reads are down. Otherwise it is none exactly when no payment references the order, else the first payment that does. |
| Store.GetCustomerOrders | src/data_handler.py:79-82 | Raises exactly when that query is down. Otherwise an order is listed exactly when it is in the store and belongs to the customer. The list keeps store order: its i-th entry is the customer's i-th order in the store. |
| Store.GetFailedPayments | src/data_handler.py:112-115 | A payment is listed exactly when it is the customer's and its status is "failed". The list is empty exactly when the customer has no failed payment. The list keeps store order with no repeats: its i-th entry is the customer's i-th failed payment in the store, so its length is their number. |
| Store.UpdateWalletBalance | src/data_handler.py:105-110 | Only that customer's balance changes. After a successful call the balance is the new value. The flag is true exactly when the customer exists and the balance differed. An unknown customer or a fault leaves the store as it was. |
| Store.AddEscalation | src/data_handler.py:140-149 | Appends exactly one pending escalation with this case, customer and details, and answers true. A fault writes nothing. |
| Store.GetCustomerSubscriptions | src/data_handler.py:125-128 | A subscription is listed exactly when it is in the store and belongs to the customer, in store order. |
| Store.FindActiveSubscription | src/subscription_manager.py:59 | Finds the first subscription in store order with this id whose status is "active", and none exactly when no such subscription exists. |
| Store.SetSubscriptionStatus | src/data_handler.py:133-138 | Only the first subscription with the id gets the new status; all others and every other collection are unchanged. The flag is true exactly when that subscription exists and its status differed. |
| OrderIds.ExtractOrderId | src/resolution_engine.py:47-50 | The result is none exactly when the message holds no `ORD` followed by three digits. Otherwise it is the leftmost such six-character reference. |
| OrderIds.ExtractFindsFirstRef | src/resolution_engine.py:47-50 | A reference placed after text that holds none is the one extracted, whatever follows it. |
| OrderIds.ExtractLeadingRef | src/resolution_engine.py:47-50 | A message that opens with a reference names that order. |
| OrderIds.ExtractTakesSixCharacters | src/resolution_engine.py:48 | "ORD0012" yields "ORD001": the match is six characters long, not the whole digit run. |
| RecentOrder.MostRecentIndex | src/resolution_engine.py:199-205 | The chosen order is delivered, and no delivered order has a later date (a missing date counts as ""). Every delivered order before it has a strictly earlier date, which is the head after a stable reverse sort. None exactly when no order is delivered. |
| RecentOrder.MostRecentIsUnique | src/resolution_engine.py:204-205 | At most one position satisfies the most-recent characterisation. |
| Oracle.Clamp | src/resolution_engine.py:141-145 | The confidence lies in [0, 1]. A number in range is kept; anything else, NaN included, becomes 0.0 (the corrected clamp). |
| Oracle.NotScalarErrorsDiffer | src/resolution_engine.py:142 | The TypeError text names the kind of value: null, a list and an object each give a different message. |
| Oracle.ClampAsWritten | src/resolution_engine.py:141-145 | As written: a number in [0, 1] is kept and any other number becomes 0.0, but NaN passes through as NaN. |
| Oracle.Decide | src/resolution_engine.py:149-167 | Approve exactly for "resolved" at confidence ≥ 0.7. Inconclusive exactly below 0.7. Otherwise the reply's non-resolved status is kept. |
| Oracle.DecideAsWritten | src/resolution_engine.py:149-167 | As written, on floats: it agrees with `Decide` on every finite confidence. |
| Oracle.NaNConfidenceKeepsResolved | src/resolution_engine.py:142-167 | As written, a NaN confidence keeps "resolved" without taking the approval branch. With the corrected clamp the same reply is inconclusive. |
| Oracle.CorrectedAgreesOnNumbers | src/resolution_engine.py:142-167 | On every finite confidence, the corrected clamp and rule give the same result as the code as written. |
| Oracle.Assess | src/resolution_engine.py:131-145 | A reply is graded exactly when the status and message keys are present (null allowed) and the confidence converts to a number. A missing key, an unconvertible string and a non-JSON reply give the parsing-error verdict. A transport fault gives the technical-error verdict with its error, and a non-scalar confidence (null included) gives it with `float()`'s TypeError text, which ends with the value's Python type (`'NoneType'`, `'list'` or `'dict'`). A grade carries the reply's message (none for null), has its confidence clamped, and counts as resolved exactly when the status is the string "resolved". |
| Oracle.ApprovalMatchesReply | src/resolution_engine.py:131-167 | Normalisation followed by the rule approves exactly the replies with status "resolved", a message key (null will do), and a finite confidence in [0.7, 1]. |
| Oracle.ThresholdIsInclusive | src/resolution_engine.py:150 | A confidence of exactly 0.7 approves; 0.69999 is inconclusive. |
| Refund.Guard | src/resolution_engine.py:60-95 | Guards fire in a fixed order: missing order, cancelled order, refunded payment, missing or empty image. All pass exactly when none applies. Each one that fires escalates with confidence 0 and its own reason. |
| Refund.Conclude | src/resolution_engine.py:131-185 | Resolved exactly when the oracle approves and the customer, the amount and the wallet write are all available. A resolved verdict credits the wallet once with the amount and reports the new balance. A rejected reply (transport fault, non-scalar confidence, bad JSON, missing key) returns its technical-error or parsing-error verdict as is. Below 0.7 the verdict is "analysis inconclusive" with the clamped confidence. A non-resolved status at or above 0.7 keeps the oracle's message. An approved reply that is not credited ends in the missing-customer or a technical-error verdict. Any other verdict writes nothing, and only the customer's wallet can change. |
| Refund.ValidateRefund | src/resolution_engine.py:52-185 | Raises exactly when the order or payment lookup is down, with that lookup's error. Otherwise the first guard that fires decides the verdict, in the order missing order, cancelled, already refunded, no image. When none fires, the oracle's reply decides (`Conclude`). Only the wallet can change, and it changes exactly as a resolved verdict reports. |
| Refund.ApprovedExactly | src/resolution_engine.py:57-167 | A wallet is credited exactly when all of these hold: the order exists and is not cancelled, the payment is not refunded, an image is present, the oracle approves, the customer and amount exist, and no store fault intervenes. |
| Refund.LowConfidenceEscalates | src/resolution_engine.py:162-165 | Below 0.7 the verdict is escalated whatever status the oracle gave, and nothing is written. |
| Refund.ImageGuardUnreachable | src/resolution_engine.py:87-95 | With an image present, the validator's missing-image guard never fires. The caller asks for a missing image first (line 242-245). |
| Workflow.EscalateWith | src/resolution_engine.py:214-217 | Sets status escalated and the response, and appends one escalation with the given details. A store fault propagates and writes nothing. |
| Workflow.EscalateOrFallBack | src/resolution_engine.py:213-228 | A failed escalation write is retried by the handler with the fallback. Because a fault persists, the retry fails too. A success is exactly the first escalation. |
| Workflow.InferOrderId | src/resolution_engine.py:195-208 | A query fault yields no id. Otherwise there is no id exactly when none of the customer's orders is delivered, and an inferred id is that of the most recent delivered order in the customer's listing (latest date, earliest in the listing among equal dates). |
| Workflow.RefundAmountFor | src/resolution_engine.py:219-221 | A truthy given amount is kept. Otherwise the order total is used, 0.0 when the total is missing; the amount is none exactly when the given amount is falsy and the total is null. |
| Workflow.FetchOrder | src/resolution_engine.py:187-235 | Non-refund intents pass through unchanged. A refund request either escalates with one recorded escalation or carries an order loaded by its id. That order's id is the one in the message when the message has one. Its refund amount is `RefundAmountFor` the given amount and that order. When the order lookup is down, the response is "Error retrieving order …" and the escalation carries the lookup error and the message. Only a fault recording the escalation reaches the caller. |
| Workflow.Route | src/resolution_engine.py:345-356 | Other intents go to their handler. A refund goes to the decision exactly when it is not escalated and has order data. |
| Workflow.ActOnVerdict | src/resolution_engine.py:249-278 | The verdict becomes the status and the validation. A non-escalated verdict writes nothing. An escalated one appends one escalation carrying the message, order id, amount and verdict. |
| Workflow.RefundDecision | src/resolution_engine.py:237-284 | Without an image, it asks for one and writes nothing. With one, the status is resolved or escalated. Resolved means the oracle approved and the wallet was credited as the verdict reports. Any other outcome leaves customers unchanged, and an escalated verdict is recorded with its payload. When the validator's order or payment lookup is down, the response is the technical-error text and the escalation carries that error and the message. |
| Workflow.ReportOrder | src/resolution_engine.py:305-315 | No order id in the message: nothing changes. An order lookup fault raises and writes nothing. A found order resolves with a response giving its status and expected delivery, and the store is unchanged. A missing order escalates with the given response and appends exactly one pending escalation for the case and customer, carrying the customer's message. |
| Workflow.CheckPayments | src/resolution_engine.py:295-326 | Raises exactly when the failed-payment query is down, or when there are failed payments and the escalation write is down. With failed payments it escalates with the handler's failure response and appends one escalation carrying the customer's message. With none it resolves with the given response and writes nothing. |
| Workflow.HandleOtherIntents | src/resolution_engine.py:286-343 | A missing customer gives `error`. The wallet and payment intents escalate exactly when the customer has failed payments. Delivery and status intents report the named order. An unknown intent escalates. Raises exactly when a store call it makes is down. Customer records are never changed. |
| Workflow.RunGraph | src/resolution_engine.py:358-385 | Only a refund that resolves changes customers. A resolved refund names an order found by its id, the oracle approved it, and the wallet went up by the order's refund amount. Every run either escalates having recorded one escalation, or records none. |
| Workflow.ProcessRequest | src/resolution_engine.py:387-446 | The result is always answered unless escalation writes are down. An escalated answer has exactly one escalation for its case. Any other answer writes at most the customer's balance, and only a resolved refund changes customers. A graph fault becomes a recorded escalation. |
| WorkflowFacts.RefundEndsOnlyEscalated | src/resolution_engine.py:210-235 | After order context, a refund reaches the decision or ends escalated with its escalation already recorded. |
| WorkflowFacts.InferenceOnlyWithImage | src/resolution_engine.py:193-205 | When the message names no order, an id is inferred only when an image is present. |
| WorkflowFacts.NoOrderIdNoImage | src/resolution_engine.py:229-233 | No id and no image: answered escalated with a request for an order id, plus one escalation. |
| WorkflowFacts.UnknownOrderEscalates | src/resolution_engine.py:212-217 | A named order that does not exist: escalated, with one "order not found" escalation. |
| WorkflowFacts.MissingImageAsksForImage | src/resolution_engine.py:241-245 | A known order without a usable image: pending_image, with nothing written. |
| WorkflowFacts.ResolvedRefundCreditsOrderAmount | src/resolution_engine.py:219-221 | A resolved refund names an existing, uncancelled order. The image was present and the oracle approved. The wallet was credited with the given amount, or with the order total when the given amount is falsy. |
| WorkflowFacts.GraphStages | src/resolution_engine.py:363-383 | The graph is the order-context stage followed by the node the router picks. |
| WorkflowFacts.Answered | src/resolution_engine.py:416-429 | A graph run that does not fault is answered with its status, response, order id and validation. |
| WorkflowFacts.FetchOrderFindsNamedOrder | src/resolution_engine.py:191-222 | A refund that names an order the store has moves on with that order and its refund amount, and writes nothing. |
| WorkflowFacts.ApprovedDecisionCredits | src/resolution_engine.py:150-156 | With a refundable order, an image and an approving oracle, the decision resolves. Its only write is the balance going up by the refund amount. |
| WorkflowFacts.NamedOrderReachesDecision | src/resolution_engine.py:210-222 | A refund naming an existing order goes straight to the decision with it. |
| WorkflowFacts.ApprovalCreditsWallet | src/resolution_engine.py:150-156 | Converse of the resolved-refund property: the conditions give a resolved answer whose only write is old balance plus refund amount. |
| WorkflowFacts.RepeatedApprovalCreditsTwice | src/resolution_engine.py:150-156 | The same approved request sent twice credits the wallet twice. |
| WorkflowFacts.LowConfidenceRecordsVerdict | src/resolution_engine.py:162-165 | Low confidence: escalated, and the verdict and response are "analysis inconclusive" with the clamped confidence. The one escalation carries the order id, amount and verdict. The wallet is untouched. A reply without its status or message key gives the parsing-error verdict instead. |
| WorkflowFacts.NullTotalEscalates | src/resolution_engine.py:150-156 | An approved refund with no given amount on an order whose total is null: adding None to the balance raises, so the answer is escalated with a technical-error verdict and the wallet is untouched. |
| WorkflowFacts.WalletFaultIsEscalatedVerdict | src/resolution_engine.py:178-185 | A wallet-write fault becomes a technical-error verdict. It is escalated like any other verdict, the wallet is untouched, and there is no top-level error. |
| WorkflowFacts.FaultBecomesEscalation | src/resolution_engine.py:431-446 | Any graph fault is answered with the generic message and its error text, plus one escalation carrying the error. |
| WorkflowFacts.OtherIntentMissingCustomer | src/resolution_engine.py:289-293 | An unknown customer on any non-refund intent: `error`, with nothing written. |
| WorkflowFacts.PaymentHandlerEscalatesOnFailures | src/resolution_engine.py:295-325 | The wallet and payment handlers escalate exactly when a failed payment exists; otherwise they resolve and write nothing. |
| WorkflowFacts.PaymentIntentsEscalateOnFailures | src/resolution_engine.py:295-325 | The same for whole requests. |
| WorkflowFacts.OrderIntentsOutcome | src/resolution_engine.py:305-337 | A found order resolves with its status. A missing order escalates. No id in the message leaves the status pending, with nothing written. |
| WorkflowFacts.UnknownIntentEscalates | src/resolution_engine.py:339-342 | An intent label none of the five branches tests for escalates for manual review with one escalation. |
| Workflow.IntentOf | src/resolution_engine.py:288-339 | A label selects one of the five intents exactly when it is one of their labels, and `OtherIntent` otherwise; the intent's label is the label given. |
| Workflow.IntentLabelRoundTrip | src/resolution_engine.py:288-339 | Every intent whose other-intent name is not a known label is the intent its own label selects. |
| Scenarios.LookupsInShop | src/data_handler.py:84-103 | Lookups in the sample store find the expected orders and payment. |
| Scenarios.ShopCreditsTwice | src/resolution_engine.py:150-156 | The sample refund sent twice takes the balance from 500 to 1000. |
| Scenarios.OrderStatusReport | src/resolution_engine.py:327-333 | The sample status query resolves with "shipped" and the expected date, and writes nothing. |
| Subscriptions.CustomerSubscriptions | src/subscription_manager.py:30-38 | Lists exactly the customer's subscriptions, or nothing when the store query raises. When the query works, the list is the store's answer as is, so it keeps store order. |
| Subscriptions.CancelSubscription | src/subscription_manager.py:40-53 | Answers true exactly when the first subscription with the id existed and was not yet cancelled. Only that subscription's status changes. A fault answers false and writes nothing. |
| Subscriptions.CancelTwice | src/subscription_manager.py:40-53 | A second cancellation answers false and changes nothing. |
| Subscriptions.CancelKeepsListing | src/subscription_manager.py:40-53 | A cancellation removes no subscription from the customer's listing. |
| Subscriptions.CancelledGetsNoReminder | src/subscription_manager.py:40-92 | After a cancellation, a subscription with a unique id gets no reminder. |
| Subscriptions.Join | src/subscription_manager.py:67 | The item list starts with the first name and ends right after the last name's place. |
| Subscriptions.JoinLength | src/subscription_manager.py:67 | The item list's length is the names' total plus one separator between each pair. |
| Subscriptions.JoinHoldsName | src/subscription_manager.py:67 | Each name sits at its place: after every earlier name and its separator. |
| Subscriptions.JoinHoldsSeparator | src/subscription_manager.py:67 | Between each name and the next there is exactly the separator. |
| Subscriptions.ItemNames | src/subscription_manager.py:67 | Names exist exactly when the item list and every item's name are present. They are listed in item order. |
| Subscriptions.NamesOf | src/subscription_manager.py:67 | The same for a present item list. |
| Subscriptions.WindowFor | src/subscription_manager.py:69-80 | "Tomorrow" exactly for one day ahead, "soon" exactly for two or three days, and no reminder otherwise. |
| Subscriptions.ReminderShape | src/subscription_manager.py:71-77 | A reminder reads as its opening, the window words, the date, and the type in parentheses. |
| Subscriptions.WindowsRead | src/subscription_manager.py:69-80 | The tomorrow reminder is the other one with " tomorrow" put in right after the item list, so the two always differ. |
| Subscriptions.Notify | src/subscription_manager.py:59-92 | A reminder exists exactly when the lookup found a subscription with a non-empty, parsable date one to three days ahead and with named items. It carries the id and the date. Its text reads as the opening with the joined names, the window words chosen by the day count, the date, and the type (default "weekly"). |
| Subscriptions.GetNotification | src/subscription_manager.py:55-92 | The corrected reminder. No lookup, or no active subscription with the id, means no reminder. When the lookup works, there is a reminder exactly when the active subscription it finds is due, and the reminder is the one `Notify` describes for it. |
| Subscriptions.GetNotificationAsWritten | src/subscription_manager.py:59 | As written, the lookup uses an attribute the handler lacks, so the answer is always none. |
| Subscriptions.NotificationLostAsWritten | src/subscription_manager.py:55-92 | A subscription due tomorrow gets a reminder from the corrected lookup and none as written. |

## Left out

- Logging, the async runtime and the LangGraph machinery are left out. The graph is the fixed sequence order context → router → decision or other-intent handler.
- The oracle call itself is left out: the prompt, base64 encoding, code-fence stripping and JSON decoding. The reply arrives decoded (`Oracle.OracleReply`) or as the decoding failure it met.
- Floats are reals. Rounding, infinities and formatting (`{confidence:.2f}`, `₹` amounts) are not modelled. NaN is kept only where it changes a branch (`Oracle.Number`).
- Response texts and escalation details are constructors (`Records.Message`, `Records.Detail`), not formatted strings. `json.dumps` of the escalation payload is not modelled.
- OrderIds.ExtractOrderId: accepts only ASCII digits '0'..'9', whereas `\d` also matches other Unicode decimal digits.
- Faults are persistent per operation kind: a transient fault on one call but not the next is not modelled. For the same reason, an escalation write that faults in a node handler is not retried successfully.
- Workflow.ProcessRequest: raises to the caller only when the fallback escalation write at line 435 also fails. The raised value is the store's error, not an HTTP response.
- Workflow.RefundDecision: requires order data to come with the id it was loaded by, which is the only way `fetch_order_node` produces it.
- The timestamp of an escalation and its later resolution are outside this model: resolving is a human-review action, and the clock is not modelled.
- Refund.Conclude: applies the corrected clamp, so the workflow treats a NaN confidence as 0.0. The code as written keeps a NaN confidence and its "resolved" status (see Findings).
- RecentOrder.MostRecentIndex: an order's `order_date` is a string or missing; a date stored as null is not modelled. In the Python service, sorting two or more delivered orders where one has a null date raises a TypeError.
- Records.Order, Records.Customer: the keys the workflow reads with `[...]` are assumed present in every stored record. These are a customer's `wallet_balance` (src/resolution_engine.py:153 and 303), an order's `order_id` (line 205), and an order's `status` and `expected_delivery` (lines 311 and 333). In the Python service a missing one raises KeyError. Where that error ends depends on the line. At line 153 it becomes a technical-error verdict inside the validator. At line 205 the inference's handler (line 207) swallows it, and no id is inferred. At lines 303, 311 and 333 it reaches the top-level escalation. The model has no record lacking these keys. Only `total_amount`, `order_date` and the subscription fields may be missing.
- Oracle.Assess: a reply that decodes to JSON but not to an object (a list, a number) is not modelled. The Python service then raises on the field lookup.
- Subscriptions.GetNotification: date parsing and the clock are the parameter `daysUntil`, which answers none for a malformed date. `strptime`'s exact format rules are not modelled.
- Subscriptions.CancelledGetsNoReminder: assumes subscription ids are unique. With duplicates, `update_one` cancels only the first, and a later active duplicate can still be reminded.
- A `subscription_type` key present with the value null gives "(None)" in the Python service. The model only distinguishes a missing type from a present one.
- `create_subscription`, the other store methods (escalation resolution, customer search, upserts), the HTTP API, the intent classifier and the UIs are not part of this model.
- The store keeps orders, payments, subscriptions and escalations as sequences in natural order, so that find-one means the first match. Customers are a map keyed by id.
- The read-then-write of the wallet is not atomic in the Python service. Concurrent requests can lose an update. The model is sequential.

## Behaviour worth noting


- An ORDER_STATUS or DELIVERY_ISSUE request whose message names no order keeps the starting status "pending" and writes nothing. No escalation is recorded for it (`WorkflowFacts.OrderIntentsOutcome`).
- A fault in the wallet write during an approved refund is caught inside the validator. It becomes a technical-error verdict, which is escalated like any other. It never reaches the top-level handler (`WorkflowFacts.WalletFaultIsEscalatedVerdict`).

## Findings

| source | as written | input that shows it | evidently intended | confidence | as-written member | corrected member |
|---|---|---|---|---|---|---|
| src/resolution_engine.py:142-167 | Out-of-range confidences are reset by `confidence < 0.0 or confidence > 1.0`. This test is false for NaN, and so are both `>= 0.7` and `< 0.7`. A NaN confidence therefore keeps the oracle's status. | Oracle reply `{"status": "resolved", "message": "ok", "confidence": NaN}` (`json.loads` accepts `NaN`): the answer is "resolved", but no wallet update happens. | A confidence that is not a number in [0, 1] counts as 0.0, so the request is escalated as inconclusive. | not executed | Oracle.NaNConfidenceKeepsResolved | Oracle.Clamp |
| src/subscription_manager.py:59 | The lookup reads `self.data_handler.subscriptions`. The store handler has no such attribute; its collections live in `self.collections`. The AttributeError is caught at line 90. | An active subscription due tomorrow: `get_notification` returns None. | Look the active subscription up in the subscriptions collection. | not executed | Subscriptions.NotificationLostAsWritten | Subscriptions.GetNotification |

=== FILE: oracle.dfy ===
/**
 * The image oracle's reply and how the refund validator normalises it
 * (src/resolution_engine.py:131-185). The call itself, the prompt, the
 * code-fence stripping and the JSON decoding are outside the model: the
 * reply arrives already decoded, or as the failure that decoding it met.
 */
module Oracle {
  import opened Wrappers
  import opened Records

  /** A resolved verdict is approved only at or above this confidence. */
  const ApprovalThreshold: real := 0.7

  /** A float: a real number or NaN (infinities behave as any out-of-range number). */
  datatype Number = Finite(value: real) | NotANumber

  /** The decoded `confidence` field. */
  datatype RawConfidence =
    | Numeric(number: Number)   // a number, a numeric string or a boolean: `float()` accepts it
    | Unconvertible             // a string `float()` rejects with ValueError
    | NotScalar(kind: Compound) // null, a list or an object: `float()` raises TypeError

  /** The JSON values `float()` rejects with a TypeError, by the Python type they decode to. */
  datatype Compound = JsonNull | JsonArray | JsonObject

  /**
   * The decoded reply. `status` and `message` tell a missing key from a key
   * present with null: only a missing key fails the required-field check.
   */
  datatype OracleReply =
    | TransportFault(error: string)   // the call or reading its text raised
    | Malformed                       // the text is not JSON
    | Reply(status: Field<string>, message: Field<string>, confidence: Option<RawConfidence>, reason: Option<string>)

  /** A reply either rejected outright, or graded with a normalised status and confidence. */
  datatype Assessment =
    | Rejected(verdict: Verdict)
    | Graded(resolved: bool, message: Option<string>, confidence: real, reason: Option<Reason>)

  /** What the approval rule does with a graded reply. */
  datatype Decision = Approve | Inconclusive | KeepVerdict

  /** The verdict for any fault raised while consulting the oracle or applying its verdict. */
  function TechnicalVerdict(error: string): Verdict {
    Verdict(Escalated, OracleTechnicalError(error), 0.0, Some(TechnicalError))
  }

  /** The verdict for a reply that is not JSON or lacks a required field. */
  const ParsingVerdict: Verdict := Verdict(Escalated, AnalysisUnreadable, 0.0, Some(ParsingError))

  /** The name of the Python type a non-scalar JSON value decodes to. */
  function TypeName(kind: Compound): string {
    match kind
    case JsonNull => "NoneType"
    case JsonArray => "list"
    case JsonObject => "dict"
  }

  /** The text of the TypeError `float()` raises on a value that is not a scalar: the message, then the value's type. */
  function NotScalarError(kind: Compound): (e: string)
    ensures |NotScalarText| < |e| && e[..|NotScalarText|] == NotScalarText
  {
    NotScalarText + TypeName(kind) + "'"
  }

  const NotScalarText: string := "float() argument must be a string or a real number, not '"

  /** Each kind of non-scalar gives its own error text. */
  lemma NotScalarErrorsDiffer(k1: Compound, k2: Compound)
    requires k1 != k2
    ensures NotScalarError(k1) != NotScalarError(k2)
  {
    var n := |NotScalarText|;
    assert NotScalarError(k1)[n] == TypeName(k1)[0];
    assert NotScalarError(k2)[n] == TypeName(k2)[0];
  }

  /**
   * Confidence clamping as intended: anything that is not a number in [0, 1]
   * becomes 0.0.
   */
  function Clamp(n: Number): (c: real)
    ensures 0.0 <= c <= 1.0
    ensures n.Finite? && 0.0 <= n.value <= 1.0 ==> c == n.value
    ensures !(n.Finite? && 0.0 <= n.value <= 1.0) ==> c == 0.0
  {
    match n
    case NotANumber => 0.0
    case Finite(x) => if x < 0.0 || x > 1.0 then 0.0 else x
  }

  /**
   * Clamping as written: `confidence < 0.0 or confidence > 1.0` is false for
   * NaN, so NaN is kept.
   */
  function ClampAsWritten(n: Number): (c: Number)
    ensures c.Finite? ==> 0.0 <= c.value <= 1.0
    ensures n.Finite? && 0.0 <= n.value <= 1.0 ==> c == n
    ensures n.Finite? && !(0.0 <= n.value <= 1.0) ==> c == Finite(0.0)
    ensures n.NotANumber? ==> c.NotANumber?
  {
    match n
    case NotANumber => NotANumber
    case Finite(x) => if x < 0.0 || x > 1.0 then Finite(0.0) else n
  }

  /** The approval rule on a clamped confidence. */
  function Decide(resolved: bool, confidence: real): (d: Decision)
    ensures d == Approve <==> resolved && confidence >= ApprovalThreshold
    ensures d == Inconclusive <==> confidence < ApprovalThreshold
    ensures d == KeepVerdict ==> !resolved
  {
    if resolved && confidence >= ApprovalThreshold then Approve
    else if confidence < ApprovalThreshold then Inconclusive
    else KeepVerdict
  }

  /**
   * The approval rule as written, on a float: both `confidence >= 0.7` and
   * `confidence < 0.7` are false for NaN, so the reply's status is kept,
   * "resolved" included.
   */
  function DecideAsWritten(resolved: bool, confidence: Number): (d: Decision)
    ensures confidence.Finite? ==> d == Decide(resolved, confidence.value)
  {
    if resolved && confidence.Finite? && confidence.value >= ApprovalThreshold then Approve
    else if confidence.Finite? && confidence.value < ApprovalThreshold then Inconclusive
    else KeepVerdict
  }

  /**
   * The defect: a reply {"status": "resolved", "confidence": NaN} keeps the
   * status "resolved" without taking the approval branch, so the customer is
   * told the refund is resolved while no wallet update happens. The corrected
   * clamp sends the same reply to the inconclusive branch.
   */
  lemma NaNConfidenceKeepsResolved()
    ensures DecideAsWritten(true, ClampAsWritten(NotANumber)) == KeepVerdict
    ensures Decide(true, Clamp(NotANumber)) == Inconclusive
  {
  }

  /** On every finite confidence the corrected rule agrees with the code as written. */
  lemma CorrectedAgreesOnNumbers(resolved: bool, x: real)
    ensures ClampAsWritten(Finite(x)) == Finite(Clamp(Finite(x)))
    ensures DecideAsWritten(resolved, ClampAsWritten(Finite(x))) == Decide(resolved, Clamp(Finite(x)))
  {
  }

  /**
   * Normalisation of a decoded reply (lines 133-145, with the corrected
   * clamp): a missing field or an unconvertible confidence is a parsing
   * error, a non-scalar confidence escapes to the technical-error handler,
   * any status other than "resolved" reads as escalated.
   */
  function Assess(reply: OracleReply): (a: Assessment)
    ensures a.Rejected? ==> a.verdict.status == Escalated && a.verdict.confidence == 0.0
    ensures a.Graded? <==>
      reply.Reply? && !reply.status.Absent? && !reply.message.Absent? && reply.confidence.Some? && reply.confidence.value.Numeric?
    ensures a.Graded? ==> 0.0 <= a.confidence <= 1.0
    ensures a.Graded? ==> (a.resolved <==> reply.status == Present("resolved"))
    ensures a.Graded? ==> (a.message.Some? <==> reply.message.Present?)
    ensures a.Graded? && a.message.Some? ==> a.message.value == reply.message.value
    ensures reply.TransportFault? ==> a == Rejected(TechnicalVerdict(reply.error))
    ensures reply.Malformed? ==> a == Rejected(ParsingVerdict)
    ensures reply.Reply? && (reply.status.Absent? || reply.message.Absent? || reply.confidence.None?) ==> a == Rejected(ParsingVerdict)
    ensures reply.Reply? && !reply.status.Absent? && !reply.message.Absent? && reply.confidence == Some(Unconvertible) ==>
      a == Rejected(ParsingVerdict)
    ensures reply.Reply? && !reply.status.Absent? && !reply.message.Absent? && reply.confidence.Some? && reply.confidence.value.NotScalar? ==>
      a == Rejected(TechnicalVerdict(NotScalarError(reply.confidence.value.kind)))
  {
    match reply
    case TransportFault(e) => Rejected(TechnicalVerdict(e))
    case Malformed => Rejected(ParsingVerdict)
    case Reply(status, message, confidence, reason) =>
      if status.Absent? || message.Absent? || confidence.None? then Rejected(ParsingVerdict)
      else
        match confidence.value
        case Unconvertible => Rejected(ParsingVerdict)
        case NotScalar(kind) => Rejected(TechnicalVerdict(NotScalarError(kind)))
        case Numeric(n) =>
          var why := match reason case None => None case Some(t) => Some(OracleReason(t));
          var text := match message case Present(t) => Some(t) case _ => None;
          Graded(status == Present("resolved"), text, Clamp(n), why)
  }

  /**
   * A reply that warrants a refund: status "resolved", a `message` key (its
   * value is replaced, so null will do) and a confidence in [0.7, 1].
   */
  predicate OracleApproves(reply: OracleReply) {
    && reply.Reply?
    && reply.status == Present("resolved")
    && !reply.message.Absent?
    && reply.confidence.Some?
    && reply.confidence.value.Numeric?
    && reply.confidence.value.number.Finite?
    && ApprovalThreshold <= reply.confidence.value.number.value <= 1.0
  }

  /** Normalisation followed by the approval rule approves exactly the replies that warrant a refund. */
  lemma ApprovalMatchesReply(reply: OracleReply)
    ensures (Assess(reply).Graded? && Decide(Assess(reply).resolved, Assess(reply).confidence) == Approve)
            <==> OracleApproves(reply)
  {
  }

  /** The confidence boundary: exactly 0.7 approves, 0.69999 does not. */
  lemma ThresholdIsInclusive()
    ensures Decide(true, Clamp(Finite(0.7))) == Approve
    ensures Decide(true, Clamp(Finite(0.69999))) == Inconclusive
  {
  }
}

=== FILE: order_ids.dfy ===
/**
 * Order-reference extraction: the leftmost `ORD` followed by three digits
 * (src/resolution_engine.py:47-50). The Python pattern's `\d` also accepts
 * non-ASCII decimal digits; this model accepts only '0'..'9'.
 */
module OrderIds {
  import opened Wrappers

  predicate IsAsciiDigit(c: char) {
    '0' <= c <= '9'
  }

  /** An order reference starts at position `i` of `m`. */
  predicate RefAt(m: string, i: int) {
    && 0 <= i && i + 6 <= |m|
    && m[i] == 'O' && m[i + 1] == 'R' && m[i + 2] == 'D'
    && IsAsciiDigit(m[i + 3]) && IsAsciiDigit(m[i + 4]) && IsAsciiDigit(m[i + 5])
  }

  /** `s` is exactly one order reference. */
  predicate IsOrderRef(s: string) {
    |s| == 6 && RefAt(s, 0)
  }

  /** Position of the first reference at or after `i`. */
  function SearchFrom(m: string, i: nat): (r: Option<nat>)
    requires i <= |m|
    decreases |m| - i
    ensures r.Some? ==> i <= r.value && RefAt(m, r.value)
    ensures r.Some? ==> forall j :: i <= j < r.value ==> !RefAt(m, j)
    ensures r.None? ==> forall j :: i <= j ==> !RefAt(m, j)
  {
    if i + 6 > |m| then None
    else if RefAt(m, i) then Some(i)
    else SearchFrom(m, i + 1)
  }

  /** The leftmost order reference in a customer message, if there is one. */
  function ExtractOrderId(m: string): (r: Option<string>)
    ensures r.None? <==> forall j :: !RefAt(m, j)
    ensures r.Some? ==> IsOrderRef(r.value)
    ensures r.Some? ==>
      exists k :: RefAt(m, k) && r.value == m[k..k + 6] && forall j :: 0 <= j < k ==> !RefAt(m, j)
  {
    match SearchFrom(m, 0)
    case None => None
    case Some(k) => Some(m[k..k + 6])
  }

  /**
   * A reference placed after text that holds none is the one extracted,
   * whatever follows it: no match can straddle the boundary, since a
   * reference begins with 'O', which is neither 'R', 'D' nor a digit.
   */
  lemma ExtractFindsFirstRef(prefix: string, ref: string, rest: string)
    requires forall j :: !RefAt(prefix, j)
    requires IsOrderRef(ref)
    ensures ExtractOrderId(prefix + ref + rest) == Some(ref)
  {
    var m := prefix + ref + rest;
    var n := |prefix|;
    assert m[n..n + 6] == ref;
    assert RefAt(m, n);
    forall j | 0 <= j < n
      ensures !RefAt(m, j)
    {
      if j + 6 <= n {
        assert m[j..j + 6] == prefix[j..j + 6];
        assert !RefAt(prefix, j);
      } else {
        assert m[n] == 'O';
      }
    }
    var r := ExtractOrderId(m);
    assert r.Some?;
    var k :| RefAt(m, k) && r.value == m[k..k + 6] && forall j :: 0 <= j < k ==> !RefAt(m, j);
    assert k == n;
  }

  /** A message that opens with an order reference names that order, whatever follows it. */
  lemma ExtractLeadingRef(ref: string, rest: string)
    requires IsOrderRef(ref)
    ensures ExtractOrderId(ref + rest) == Some(ref)
  {
    assert forall j :: !RefAt("", j);
    ExtractFindsFirstRef("", ref, rest);
    assert "" + ref + rest == ref + rest;
  }

  /** "ORD0012" yields "ORD001": the match is exactly six characters. */
  lemma ExtractTakesSixCharacters()
    ensures ExtractOrderId("ORD0012") == Some("ORD001")
  {
    ExtractLeadingRef("ORD001", "2");
    assert "ORD001" + "2" == "ORD0012";
  }
}

=== FILE: recent_order.dfy ===
/**
 * Inference of the order a refund photo most likely refers to: among the
 * customer's delivered orders, the one with the greatest order date (compared
 * as text, a missing date counting as ""); on equal dates the earliest in list
 * order wins, because the code sorts stably in reverse and takes the head
 * (src/resolution_engine.py:199-205).
 */
module RecentOrder {
  import opened Wrappers
  import opened Records
  import opened StringOrder

  predicate Delivered(o: Order) {
    o.status == "delivered"
  }

  function DateKey(o: Order): string {
    o.orderDate.GetOr("")
  }

  /** `os[k]` is the head of the delivered orders sorted by date, newest first, stably. */
  predicate IsMostRecent(os: seq<Order>, k: int) {
    && 0 <= k < |os|
    && Delivered(os[k])
    && (forall i :: 0 <= i < |os| && Delivered(os[i]) ==> !Below(DateKey(os[k]), DateKey(os[i])))
    && (forall i :: 0 <= i < k && Delivered(os[i]) ==> Below(DateKey(os[i]), DateKey(os[k])))
  }

  function MostRecentIndex(os: seq<Order>): (r: Option<nat>)
    ensures r.Some? ==> IsMostRecent(os, r.value)
    ensures r.None? <==> forall i :: 0 <= i < |os| ==> !Delivered(os[i])
  {
    if |os| == 0 then None
    else
      var tail := os[1..];
      assert forall i :: 1 <= i < |os| ==> os[i] == tail[i - 1];
      match MostRecentIndex(tail)
      case None =>
        if Delivered(os[0]) then
          BelowIrreflexive(DateKey(os[0]));
          Some(0)
        else None
      case Some(k) =>
        if Delivered(os[0]) && !Below(DateKey(os[0]), DateKey(tail[k])) then
          HeadBeatsTail(os, k);
          Some(0)
        else
          BelowIrreflexive(DateKey(tail[k]));
          BelowAsymmetric(DateKey(os[0]), DateKey(tail[k]));
          Some(k + 1)
  }

  /** A delivered head not older than the tail's choice is itself the choice. */
  lemma HeadBeatsTail(os: seq<Order>, k: nat)
    requires |os| > 0 && Delivered(os[0])
    requires IsMostRecent(os[1..], k)
    requires !Below(DateKey(os[0]), DateKey(os[1..][k]))
    ensures IsMostRecent(os, 0)
  {
    BelowIrreflexive(DateKey(os[0]));
    forall i | 1 <= i < |os| && Delivered(os[i])
      ensures !Below(DateKey(os[0]), DateKey(os[i]))
    {
      assert os[i] == os[1..][i - 1];
      AtLeastTransitive(DateKey(os[0]), DateKey(os[1..][k]), DateKey(os[i]));
    }
  }

  /** The characterisation fixes the choice: at most one index satisfies it. */
  lemma MostRecentIsUnique(os: seq<Order>, k1: int, k2: int)
    requires IsMostRecent(os, k1) && IsMostRecent(os, k2)
    ensures k1 == k2
  {
  }
}

=== FILE: records.dfy ===
/**
 * The records the support service stores and the closed vocabularies the
 * resolution workflow answers with: terminal statuses, response messages,
 * refund-validation verdicts and escalation details.
 */
module Records {
  import opened Wrappers

  /** Raw image bytes as uploaded by the customer. */
  type Image = seq<bv8>

  datatype Customer = Customer(
    name: string,
    email: string,
    phone: string,
    membershipTier: string,
    walletBalance: real,
    location: string)

  /**
   * `orderDate` may be missing and is then read as "". `totalAmount` may be
   * missing, which reads as 0.0, or stored as null, which reads as `None`.
   */
  datatype Order = Order(
    orderId: string,
    customerId: string,
    status: string,
    totalAmount: Field<real>,
    orderDate: Option<string>,
    expectedDelivery: string)

  datatype Payment = Payment(
    paymentId: string,
    orderId: string,
    customerId: string,
    status: string,
    refundDate: Option<string>)

  /** A subscription line item; its `name` key may be missing. */
  datatype Item = Item(name: Option<string>)

  datatype Subscription = Subscription(
    subscriptionId: string,
    customerId: string,
    status: string,
    deliveryDate: Option<string>,
    items: Option<seq<Item>>,
    subscriptionType: Option<string>)

  /**
   * Workflow status. `Pending` is the value the workflow starts from; the
   * declared status type of the Python service omits it, yet two intents can end
   * with it (an order-related intent whose message names no order).
   */
  datatype Status = Pending | Resolved | Escalated | PendingImage | Error

  /** Why a refund validation ended as it did. */
  datatype Reason =
    | OrderNotFound
    | OrderCancelled
    | AlreadyRefunded
    | NoImage
    | ParsingError
    | TechnicalError
    | OracleReason(text: string)   // whatever `reason` the image oracle supplied

  /** The response texts the workflow can produce, one constructor per template. */
  datatype Message =
    | Processing
    | AskForOrderId
    | OrderMissing(orderId: string)
    | OrderLookupFailed(orderId: string)
    | AskForImage(orderId: string)
    | ValidationFailed
    | CustomerMissing
    | PaymentIssuesFound
    | WalletBalanceIs(balance: real)
    | OrderStatusIs(orderId: string, orderStatus: string, expectedDelivery: string)
    | DeliveryUntrackable
    | FailedPaymentCount(count: nat)
    | NoPaymentIssues
    | OrderMissingAskAgain
    | NeedsManualReview
    | WorkflowTechnicalIssue
    // refund-validation messages
    | OrderIsCancelled(orderId: string)
    | RefundedBefore(orderId: string, refundDate: Option<string>)
    | NoImageData
    | RefundApplied(amount: real, newBalance: real)
    | CustomerMissingDuringRefund
    | AnalysisInconclusive(confidence: real)
    | OracleMessage(text: Option<string>)   // `None` when the oracle sent a null message
    | AnalysisUnreadable
    | OracleTechnicalError(error: string)

  /** The result of validating one refund request. */
  datatype Verdict = Verdict(status: Status, message: Message, confidence: real, reason: Option<Reason>)

  /** The issue details an escalation record carries. */
  datatype Detail =
    | NoOrderIdGiven(customerMessage: string)
    | OrderNotFoundFor(customerMessage: string)
    | OrderLookupError(error: string, customerMessage: string)
    | RefundValidationEscalated(customerMessage: string, orderId: Option<string>, refundAmount: Option<real>, verdict: Verdict)
    | ValidationError(error: string, customerMessage: string)
    | CustomerText(customerMessage: string)
    | WorkflowError(error: string, customerMessage: string)

  datatype EscalationStatus = EscalationPending | EscalationResolved

  datatype Escalation = Escalation(caseId: string, customerId: string, details: Detail, status: EscalationStatus)

  /** Python truthiness of optional bytes: present and non-empty. */
  predicate HasImage(image: Option<Image>) {
    image.Some? && |image.value| > 0
  }

  /** Python truthiness of an optional amount: `None` and `0.0` are both falsy. */
  predicate IsFalsy(amount: Option<real>) {
    amount.None? || amount.value == 0.0
  }
}

=== FILE: refund.dfy ===
/**
 * Refund validation (src/resolution_engine.py:52-185): guards that
 * short-circuit in a fixed order, the oracle's normalised verdict, and the
 * approval rule that credits the customer's wallet.
 */
module Refund {
  import opened Wrappers
  import opened Records
  import opened Store
  import opened Oracle

  /** The TypeError `wallet_balance + None` raises when there is no refund amount (line 153). */
  const NoAmountError: string := "unsupported operand type(s) for +: 'float' and 'NoneType'"

  /** The outcome of one validation with the store after it. */
  datatype Checked = Checked(result: Res<Verdict>, store: Store)

  predicate Refunded(payment: Option<Payment>) {
    payment.Some? && payment.value.status == "refunded"
  }

  /**
   * The first guard that fails, in the order missing order, cancelled order,
   * already-refunded payment, missing image; `None` when all pass.
   */
  function Guard(orderId: string, order: Option<Order>, payment: Option<Payment>, image: Option<Image>): (g: Option<Verdict>)
    ensures g.Some? ==> g.value.status == Escalated && g.value.confidence == 0.0
    ensures g.None? <==> order.Some? && order.value.status != "cancelled" && !Refunded(payment) && HasImage(image)
    ensures order.None? ==> g == Some(Verdict(Escalated, OrderMissing(orderId), 0.0, Some(OrderNotFound)))
    ensures order.Some? && order.value.status == "cancelled" ==> g.Some? && g.value.reason == Some(OrderCancelled)
    ensures order.Some? && order.value.status != "cancelled" && Refunded(payment) ==>
      g.Some? && g.value.reason == Some(AlreadyRefunded) && g.value.message == RefundedBefore(orderId, payment.value.refundDate)
    ensures order.Some? && order.value.status != "cancelled" && !Refunded(payment) && !HasImage(image) ==>
      g.Some? && g.value.reason == Some(NoImage)
  {
    if order.None? then Some(Verdict(Escalated, OrderMissing(orderId), 0.0, Some(OrderNotFound)))
    else if order.value.status == "cancelled" then Some(Verdict(Escalated, OrderIsCancelled(orderId), 0.0, Some(OrderCancelled)))
    else if Refunded(payment) then Some(Verdict(Escalated, RefundedBefore(orderId, payment.value.refundDate), 0.0, Some(AlreadyRefunded)))
    else if !HasImage(image) then Some(Verdict(Escalated, NoImageData, 0.0, Some(NoImage)))
    else None
  }

  /** The wallet of `customerId` went from its old balance to old + amount, as the verdict reports. */
  predicate Credited(st: Store, st': Store, customerId: string, amount: Option<real>, v: Verdict) {
    && customerId in st.customers
    && customerId in st'.customers
    && v.message.RefundApplied?
    && amount == Some(v.message.amount)
    && v.message.newBalance == st.customers[customerId].walletBalance + v.message.amount
    && st'.customers[customerId].walletBalance == v.message.newBalance
  }

  /**
   * Normalises the oracle's reply and applies the approval rule (lines 131-185). On
   * approval the customer is re-read and the refund added to the wallet once;
   * a fault there becomes a technical-error verdict (line 178) and the wallet
   * is left as it was. The flag the store returns is ignored.
   */
  function Conclude(st: Store, customerId: string, amount: Option<real>, reply: OracleReply): (c: Checked)
    ensures c.result.Ok?
    ensures c.result.value.status == Resolved || c.result.value.status == Escalated
    ensures OnlyWalletOf(st, c.store, customerId)
    ensures c.result.value.status == Resolved ==> Credited(st, c.store, customerId, amount, c.result.value)
    ensures c.result.value.status == Resolved ==> c.result.value.confidence >= ApprovalThreshold
    ensures c.result.value.status != Resolved ==> c.store == st
    ensures c.result.value.status == Resolved <==>
      && OracleApproves(reply)
      && GetCustomerOp !in st.faults && customerId in st.customers
      && amount.Some? && UpdateWalletBalanceOp !in st.faults
    ensures Assess(reply).Rejected? ==> c == Checked(Ok(Assess(reply).verdict), st)
    ensures Assess(reply).Graded? && Assess(reply).confidence < ApprovalThreshold ==>
      var a := Assess(reply);
      c == Checked(Ok(Verdict(Escalated, AnalysisInconclusive(a.confidence), a.confidence, a.reason)), st)
    ensures Assess(reply).Graded? && !Assess(reply).resolved && Assess(reply).confidence >= ApprovalThreshold ==>
      var a := Assess(reply);
      c == Checked(Ok(Verdict(Escalated, OracleMessage(a.message), a.confidence, a.reason)), st)
    ensures OracleApproves(reply) && c.result.value.status != Resolved ==>
      || c.result.value.message == CustomerMissingDuringRefund
      || c.result.value.reason == Some(TechnicalError)
  {
    ApprovalMatchesReply(reply);
    match Assess(reply)
    case Rejected(v) => Checked(Ok(v), st)
    case Graded(resolved, text, confidence, reason) =>
      match Decide(resolved, confidence)
      case Approve =>
        (match GetCustomer(st, customerId)
         case Fault(e) => Checked(Ok(TechnicalVerdict(e)), st)
         case Ok(None) => Checked(Ok(Verdict(Escalated, CustomerMissingDuringRefund, confidence, reason)), st)
         case Ok(Some(customer)) =>
           match amount
           case None => Checked(Ok(TechnicalVerdict(NoAmountError)), st)
           case Some(refund) =>
             var newBalance := customer.walletBalance + refund;
             var w := UpdateWalletBalance(st, customerId, newBalance);
             match w.result
             case Fault(e) => Checked(Ok(TechnicalVerdict(e)), st)
             case Ok(_) => Checked(Ok(Verdict(Resolved, RefundApplied(refund, newBalance), confidence, reason)), w.store))
      case Inconclusive => Checked(Ok(Verdict(Escalated, AnalysisInconclusive(confidence), confidence, reason)), st)
      case KeepVerdict => Checked(Ok(Verdict(if resolved then Resolved else Escalated, OracleMessage(text), confidence, reason)), st)
  }

  /**
   * Validates one refund: loads the order and its payment (a store fault
   * there propagates to the caller), runs the guards, then applies the
   * oracle's verdict.
   */
  function ValidateRefund(st: Store, customerId: string, orderId: string, image: Option<Image>, amount: Option<real>, reply: OracleReply): (c: Checked)
    ensures c.result.Fault? <==> GetOrderOp in st.faults || GetOrderPaymentOp in st.faults
    ensures c.result.Fault? ==> c.store == st
    ensures c.result.Ok? ==> c.result.value.status == Resolved || c.result.value.status == Escalated
    ensures OnlyWalletOf(st, c.store, customerId)
    ensures c.result.Ok? && c.result.value.status == Resolved ==> Credited(st, c.store, customerId, amount, c.result.value)
    ensures !(c.result.Ok? && c.result.value.status == Resolved) ==> c.store == st
    ensures c.result.Ok? && c.result.value.status == Escalated && c.result.value.confidence >= ApprovalThreshold ==>
      c.result.value.message.OracleMessage? || c.result.value.message == CustomerMissingDuringRefund
    ensures GetOrderOp !in st.faults && GetOrderPaymentOp !in st.faults ==>
      var g := Guard(orderId, GetOrder(st, orderId).value, GetOrderPayment(st, orderId).value, image);
      && (g.Some? ==> c == Checked(Ok(g.value), st))
      && (g.None? ==> c == Conclude(st, customerId, amount, reply))
    ensures GetOrderOp in st.faults ==> c == Checked(Fault(st.faults[GetOrderOp]), st)
    ensures GetOrderOp !in st.faults && GetOrderPaymentOp in st.faults ==> c == Checked(Fault(st.faults[GetOrderPaymentOp]), st)
  {
    match GetOrder(st, orderId)
    case Fault(e) => Checked(Fault(e), st)
    case Ok(order) =>
      match GetOrderPayment(st, orderId)
      case Fault(e) => Checked(Fault(e), st)
      case Ok(payment) =>
        match Guard(orderId, order, payment, image)
        case Some(v) => Checked(Ok(v), st)
        case None => Conclude(st, customerId, amount, reply)
  }

  /**
   * The wallet is credited exactly when the order exists, is not cancelled,
   * its payment is not refunded, an image is present, the oracle says
   * "resolved" with confidence in [0.7, 1], and the customer and the refund
   * amount are there to apply it to — with no store fault on the way.
   */
  lemma ApprovedExactly(st: Store, customerId: string, orderId: string, image: Option<Image>, amount: Option<real>, reply: OracleReply)
    ensures var c := ValidateRefund(st, customerId, orderId, image, amount, reply);
      (c.result.Ok? && c.result.value.status == Resolved) <==>
        && GetOrderOp !in st.faults && GetOrderPaymentOp !in st.faults
        && GetOrder(st, orderId).value.Some? && GetOrder(st, orderId).value.value.status != "cancelled"
        && !Refunded(GetOrderPayment(st, orderId).value)
        && HasImage(image)
        && OracleApproves(reply)
        && GetCustomerOp !in st.faults && customerId in st.customers
        && amount.Some? && UpdateWalletBalanceOp !in st.faults
  {
  }

  /** Below the threshold the verdict is escalated, whatever status the oracle gave. */
  lemma LowConfidenceEscalates(st: Store, customerId: string, orderId: string, image: Option<Image>, amount: Option<real>, reply: OracleReply)
    requires reply.Reply? && reply.confidence.Some? && reply.confidence.value.Numeric?
    requires reply.confidence.value.number.Finite? && reply.confidence.value.number.value < ApprovalThreshold
    ensures var c := ValidateRefund(st, customerId, orderId, image, amount, reply);
      c.result.Ok? ==> c.result.value.status == Escalated && c.store == st
  {
    ApprovedExactly(st, customerId, orderId, image, amount, reply);
  }

  /**
   * The workflow asks for an image before it validates (line 245), so with an
   * image present the validator's own missing-image guard never fires.
   */
  lemma ImageGuardUnreachable(st: Store, customerId: string, orderId: string, image: Option<Image>, amount: Option<real>, reply: OracleReply)
    requires HasImage(image)
    ensures var c := ValidateRefund(st, customerId, orderId, image, amount, reply);
      c.result.Ok? ==> c.result.value.reason != Some(NoImage)
  {
  }
}

=== FILE: scenarios.dfy ===
/** Concrete requests against a small store, worked end to end. */
module Scenarios {
  import opened Wrappers
  import opened Records
  import opened Store
  import opened OrderIds
  import opened Oracle
  import opened Workflow
  import WorkflowFacts

  const Alice: Customer := Customer("Alice", "alice@example.com", "555-0100", "gold", 500.0, "Pune")

  const Order7: Order := Order("ORD007", "C1", "delivered", Present(250.0), Some("2024-05-01"), "2024-05-03")

  const Order10: Order := Order("ORD010", "C1", "shipped", Present(90.0), Some("2024-05-02"), "2024-05-09")

  const Shop: Store := Store(
    map["C1" := Alice],
    [Order7, Order10],
    [Payment("P7", "ORD007", "C1", "pending", None)],
    [],
    [],
    map[])

  const Photo: Image := [1, 2, 3]

  function ResolvedReply(confidence: real): OracleReply {
    Reply(Present("resolved"), Present("damage visible"), Some(Numeric(Finite(confidence))), None)
  }

  lemma LookupsInShop()
    ensures GetOrder(Shop, "ORD007") == Ok(Some(Order7))
    ensures GetOrder(Shop, "ORD010") == Ok(Some(Order10))
    ensures GetOrderPayment(Shop, "ORD007") == Ok(Some(Payment("P7", "ORD007", "C1", "pending", None)))
  {
    assert Shop.orders[0] == Order7 && Shop.orders[1] == Order10;
    assert Shop.orders[1].orderId == "ORD010";
    assert Shop.payments[0].orderId == "ORD007";
  }

  /** The same confident refund of ORD007 sent twice: 500 -> 750 -> 1000. */
  lemma ShopCreditsTwice(note: string)
    ensures var o1 := ProcessRequest(Shop, RefundRequest, "ORD007" + note, "C1", "case-1", Some(Photo), None, ResolvedReply(0.9));
      var o2 := ProcessRequest(o1.store, RefundRequest, "ORD007" + note, "C1", "case-2", Some(Photo), None, ResolvedReply(0.9));
      && o2.result.Ok? && o2.result.value.status == Resolved
      && "C1" in o2.store.customers && o2.store.customers["C1"].walletBalance == 1000.0
  {
    ExtractLeadingRef("ORD007", note);
    LookupsInShop();
    WorkflowFacts.RepeatedApprovalCreditsTwice(Shop, "ORD007" + note, "C1", "case-1", "case-2", Some(Photo), None, ResolvedReply(0.9), "ORD007", Order7);
  }

  /** ORDER_STATUS for an existing shipped order: resolved with its status and expected delivery. */
  lemma OrderStatusReport(note: string)
    ensures var o := ProcessRequest(Shop, OrderStatus, "ORD010" + note, "C1", "case-4", None, None, Malformed);
      && o.result.Ok?
      && o.result.value.status == Resolved
      && o.result.value.message == OrderStatusIs("ORD010", "shipped", "2024-05-09")
      && o.store == Shop
  {
    ExtractLeadingRef("ORD010", note);
    LookupsInShop();
    WorkflowFacts.OrderIntentsOutcome(Shop, OrderStatus, "ORD010" + note, "C1", "case-4", None, None, Malformed);
  }
}

=== FILE: seqs.dfy ===
/** The two collection queries the record store answers: find-first and filter. */
module Seqs {
  import opened Wrappers

  /** Index of the first element satisfying `p`, the element a find-one query returns. */
  function FirstIndex<T>(xs: seq<T>, p: T -> bool): (r: Option<nat>)
    ensures r.Some? ==> r.value < |xs| && p(xs[r.value])
    ensures r.Some? ==> forall j :: 0 <= j < r.value ==> !p(xs[j])
    ensures r.None? <==> forall j :: 0 <= j < |xs| ==> !p(xs[j])
  {
    if |xs| == 0 then None
    else if p(xs[0]) then Some(0)
    else
      match FirstIndex(xs[1..], p)
      case None =>
        assert forall j :: 1 <= j < |xs| ==> xs[j] == xs[1..][j - 1];
        None
      case Some(k) =>
        assert forall j :: 1 <= j < k + 1 ==> xs[j] == xs[1..][j - 1];
        Some(k + 1)
  }

  /** One step of `Filter`: the tail's picks, shifted past the head, are the whole sequence's. */
  lemma FilterStep<T>(x: T, xs: seq<T>, rest: seq<T>, idx: seq<int>, tail: seq<int>, d: int)
    requires |xs| > 0 && xs[0] == x && (d == 0 || d == 1)
    requires |rest| == |tail| && forall i :: 0 <= i < |rest| ==> 0 <= tail[i] < |xs| - 1 && rest[i] == xs[1..][tail[i]]
    requires |idx| == |tail| + d && (d == 1 ==> idx[0] == 0)
    requires forall i :: 0 <= i < |idx| ==> 0 <= idx[i] < |xs|
    requires forall i :: 0 <= i < |tail| ==> idx[i + d] == tail[i] + 1
    ensures var r := if d == 1 then [x] + rest else rest;
      |r| == |idx| && forall i :: 0 <= i < |r| ==> r[i] == xs[idx[i]]
  {
  }

  /** `idx` lists positions of a sequence of length `n`, each one greater than the one before. */
  predicate Ascending(idx: seq<int>, n: int) {
    && (forall i :: 0 <= i < |idx| ==> 0 <= idx[i] < n)
    && (forall i :: 0 < i < |idx| ==> idx[i - 1] < idx[i])
  }

  /** Every position moved one place to the right. */
  ghost function Shift(idx: seq<int>): (r: seq<int>)
    ensures |r| == |idx|
    ensures forall i :: 0 <= i < |idx| ==> r[i] == idx[i] + 1
  {
    if |idx| == 0 then [] else [idx[0] + 1] + Shift(idx[1..])
  }

  /** The positions of `xs` whose elements satisfy `p`, in ascending order. */
  ghost function Positions<T>(xs: seq<T>, p: T -> bool): (idx: seq<int>)
    ensures Ascending(idx, |xs|)
    ensures forall k :: 0 <= k < |xs| ==> (k in idx <==> p(xs[k]))
  {
    if |xs| == 0 then []
    else
      var rest := Positions(xs[1..], p);
      ShiftedPositions(xs, p, rest);
      if p(xs[0]) then [0] + Shift(rest) else Shift(rest)
  }

  /** Shifting keeps positions ascending, leaves room for 0 in front, and never yields 0. */
  lemma ShiftAscending(rest: seq<int>, n: nat)
    requires Ascending(rest, n)
    ensures Ascending(Shift(rest), n + 1) && Ascending([0] + Shift(rest), n + 1)
    ensures 0 !in Shift(rest)
  {
    var shifted := Shift(rest);
    var whole := [0] + shifted;
    forall i | 1 <= i < |whole|
      ensures whole[i] == shifted[i - 1] && 0 < whole[i] < n + 1
    {
    }
    forall i | 1 < i < |whole|
      ensures whole[i - 1] < whole[i]
    {
      assert whole[i - 1] == shifted[i - 2] && whole[i] == shifted[i - 1];
    }
  }

  /** The tail's positions, shifted past the head, are the whole sequence's positions after 0. */
  lemma ShiftedPositions<T>(xs: seq<T>, p: T -> bool, rest: seq<int>)
    requires |xs| > 0 && Ascending(rest, |xs| - 1)
    requires forall k :: 0 <= k < |xs| - 1 ==> (k in rest <==> p(xs[1..][k]))
    ensures Ascending(Shift(rest), |xs|) && Ascending([0] + Shift(rest), |xs|)
    ensures 0 !in Shift(rest)
    ensures forall k :: 1 <= k < |xs| ==> (k in Shift(rest) <==> p(xs[k]))
  {
    ShiftAscending(rest, |xs| - 1);
    var shifted := Shift(rest);
    forall k | 1 <= k < |xs|
      ensures k in shifted <==> p(xs[k])
    {
      assert xs[k] == xs[1..][k - 1];
      if k - 1 in rest {
        var i :| 0 <= i < |rest| && rest[i] == k - 1;
        assert shifted[i] == k;
      }
    }
  }

  /** The elements at the positions where `p` holds are exactly the elements of `xs` satisfying `p`. */
  lemma PickedMembers<T>(xs: seq<T>, p: T -> bool, r: seq<T>)
    requires |r| == |Positions(xs, p)|
    requires forall i :: 0 <= i < |r| ==> r[i] == xs[Positions(xs, p)[i]]
    ensures forall x :: x in r <==> x in xs && p(x)
  {
    var idx := Positions(xs, p);
    forall x | x in xs && p(x)
      ensures x in r
    {
      var k :| 0 <= k < |xs| && xs[k] == x;
      var i :| 0 <= i < |idx| && idx[i] == k;
      assert r[i] == x;
    }
  }

  /**
   * The elements satisfying `p`, in their order in `xs` (a find-many query):
   * exactly the elements at the positions where `p` holds, ascending.
   */
  function Filter<T(==,!new)>(xs: seq<T>, p: T -> bool): (r: seq<T>)
    ensures |r| == |Positions(xs, p)|
    ensures forall i :: 0 <= i < |r| ==> r[i] == xs[Positions(xs, p)[i]]
    ensures forall x :: x in r <==> x in xs && p(x)
  {
    if |xs| == 0 then []
    else
      var rest := Filter(xs[1..], p);
      var tail := Positions(xs[1..], p);
      if p(xs[0]) then
        assert Positions(xs, p) == [0] + Shift(tail);
        FilterStep(xs[0], xs, rest, [0] + Shift(tail), tail, 1);
        PickedMembers(xs, p, [xs[0]] + rest);
        [xs[0]] + rest
      else
        assert Positions(xs, p) == Shift(tail);
        FilterStep(xs[0], xs, rest, Shift(tail), tail, 0);
        PickedMembers(xs, p, rest);
        rest
  }
}

=== FILE: store.dfy ===
/**
 * The record store as the workflow sees it: five collections and the point
 * lookups, list queries and single-field updates of the MongoDB wrapper
 * (src/data_handler.py). An operation kind listed in `faults` is down: every
 * call of it raises with the given text and changes nothing.
 */
module Store {
  import opened Wrappers
  import opened Records
  import opened Seqs

  /** The store operations the core calls. */
  datatype Op =
    | GetCustomerOp
    | GetOrderOp
    | GetOrderPaymentOp
    | GetCustomerOrdersOp
    | GetFailedPaymentsOp
    | UpdateWalletBalanceOp
    | AddEscalationOp
    | GetCustomerSubscriptionsOp
    | UpdateSubscriptionOp
    | FindSubscriptionOp

  /**
   * Customers are keyed by id; the other collections keep their natural
   * order, which decides what a find-one query returns.
   */
  datatype Store = Store(
    customers: map<string, Customer>,
    orders: seq<Order>,
    payments: seq<Payment>,
    subscriptions: seq<Subscription>,
    escalations: seq<Escalation>,
    faults: map<Op, string>)

  /** The outcome of a write, with the store after it. */
  datatype Write<+T> = Write(result: Res<T>, store: Store)

  function GetCustomer(st: Store, customerId: string): (r: Res<Option<Customer>>)
    ensures r.Fault? <==> GetCustomerOp in st.faults
    ensures r.Ok? ==> (r.value.Some? <==> customerId in st.customers)
    ensures r.Ok? && r.value.Some? ==> r.value.value == st.customers[customerId]
  {
    if GetCustomerOp in st.faults then Fault(st.faults[GetCustomerOp])
    else if customerId in st.customers then Ok(Some(st.customers[customerId]))
    else Ok(None)
  }

  /** The first order whose id is `orderId`. */
  function GetOrder(st: Store, orderId: string): (r: Res<Option<Order>>)
    ensures r.Fault? <==> GetOrderOp in st.faults
    ensures r.Ok? ==> (r.value.None? <==> forall i :: 0 <= i < |st.orders| ==> st.orders[i].orderId != orderId)
    ensures r.Ok? && r.value.Some? ==>
      exists k :: 0 <= k < |st.orders| && st.orders[k] == r.value.value && st.orders[k].orderId == orderId
        && forall j :: 0 <= j < k ==> st.orders[j].orderId != orderId
  {
    if GetOrderOp in st.faults then Fault(st.faults[GetOrderOp])
    else
      match FirstIndex(st.orders, (o: Order) => o.orderId == orderId)
      case None => Ok(None)
      case Some(k) => Ok(Some(st.orders[k]))
  }

  /** The first payment recorded against `orderId`. */
  function GetOrderPayment(st: Store, orderId: string): (r: Res<Option<Payment>>)
    ensures r.Fault? <==> GetOrderPaymentOp in st.faults
    ensures r.Ok? ==> (r.value.None? <==> forall i :: 0 <= i < |st.payments| ==> st.payments[i].orderId != orderId)
    ensures r.Ok? && r.value.Some? ==>
      exists k :: 0 <= k < |st.payments| && st.payments[k] == r.value.value && st.payments[k].orderId == orderId
        && forall j :: 0 <= j < k ==> st.payments[j].orderId != orderId
  {
    if GetOrderPaymentOp in st.faults then Fault(st.faults[GetOrderPaymentOp])
    else
      match FirstIndex(st.payments, (p: Payment) => p.orderId == orderId)
      case None => Ok(None)
      case Some(k) => Ok(Some(st.payments[k]))
  }

  /** The query `{"customer_id": customerId}` on orders. */
  function OrderOf(customerId: string): Order -> bool {
    (o: Order) => o.customerId == customerId
  }

  /** The query `{"customer_id": customerId}` on subscriptions. */
  function SubscriptionOf(customerId: string): Subscription -> bool {
    (s: Subscription) => s.customerId == customerId
  }

  /** All orders of one customer, in store order. */
  function GetCustomerOrders(st: Store, customerId: string): (r: Res<seq<Order>>)
    ensures r.Fault? <==> GetCustomerOrdersOp in st.faults
    ensures r.Ok? ==> forall o :: o in r.value <==> o in st.orders && o.customerId == customerId
    ensures r.Ok? ==>
      var idx := Positions(st.orders, OrderOf(customerId));
      |r.value| == |idx| && forall i :: 0 <= i < |idx| ==> r.value[i] == st.orders[idx[i]]
  {
    if GetCustomerOrdersOp in st.faults then Fault(st.faults[GetCustomerOrdersOp])
    else Ok(Filter(st.orders, OrderOf(customerId)))
  }

  /** The query `{"customer_id": customerId, "status": "failed"}` on payments. */
  function FailedOf(customerId: string): Payment -> bool {
    (p: Payment) => p.customerId == customerId && p.status == "failed"
  }

  /** The customer's payments whose status is exactly "failed", in store order. */
  function GetFailedPayments(st: Store, customerId: string): (r: Res<seq<Payment>>)
    ensures r.Fault? <==> GetFailedPaymentsOp in st.faults
    ensures r.Ok? ==> forall p :: p in r.value <==> p in st.payments && p.customerId == customerId && p.status == "failed"
    ensures r.Ok? ==> (|r.value| == 0 <==> forall p :: p in st.payments && p.customerId == customerId ==> p.status != "failed")
    ensures r.Ok? ==>
      var idx := Positions(st.payments, FailedOf(customerId));
      |r.value| == |idx| && forall i :: 0 <= i < |idx| ==> r.value[i] == st.payments[idx[i]]
  {
    if GetFailedPaymentsOp in st.faults then Fault(st.faults[GetFailedPaymentsOp])
    else
      var r := Filter(st.payments, FailedOf(customerId));
      assert |r| > 0 ==> r[0] in r;
      Ok(r)
  }

  /**
   * Sets the wallet balance of one customer and nothing else. The boolean is
   * the store's "modified" count: false when the customer is unknown or the
   * balance already had that value. A read-then-set by a caller is not atomic:
   * two concurrent refunds can lose one update; the model is sequential.
   */
  function UpdateWalletBalance(st: Store, customerId: string, newBalance: real): (w: Write<bool>)
    ensures w.result.Fault? <==> UpdateWalletBalanceOp in st.faults
    ensures w.result.Fault? ==> w.store == st
    ensures w.result.Ok? ==> (w.result.value <==> customerId in st.customers && st.customers[customerId].walletBalance != newBalance)
    ensures OnlyWalletOf(st, w.store, customerId)
    ensures w.result.Ok? && customerId in st.customers ==> w.store.customers[customerId].walletBalance == newBalance
    ensures customerId !in st.customers ==> w.store == st
  {
    if UpdateWalletBalanceOp in st.faults then Write(Fault(st.faults[UpdateWalletBalanceOp]), st)
    else if customerId in st.customers then
      var c := st.customers[customerId];
      Write(Ok(c.walletBalance != newBalance),
            st.(customers := st.customers[customerId := c.(walletBalance := newBalance)]))
    else Write(Ok(false), st)
  }

  /** Appends a pending escalation record; the returned flag is always true. */
  function AddEscalation(st: Store, caseId: string, customerId: string, details: Detail): (w: Write<bool>)
    ensures w.result.Fault? <==> AddEscalationOp in st.faults
    ensures w.result.Fault? ==> w.store == st
    ensures w.result.Ok? ==> w.result.value
    ensures w.result.Ok? ==> AppendsEscalation(st, w.store, caseId, customerId)
    ensures w.result.Ok? ==> w.store.escalations[|st.escalations|].details == details
  {
    if AddEscalationOp in st.faults then Write(Fault(st.faults[AddEscalationOp]), st)
    else Write(Ok(true), st.(escalations := st.escalations + [Escalation(caseId, customerId, details, EscalationPending)]))
  }

  /** All subscriptions of one customer, in store order. */
  function GetCustomerSubscriptions(st: Store, customerId: string): (r: Res<seq<Subscription>>)
    ensures r.Fault? <==> GetCustomerSubscriptionsOp in st.faults
    ensures r.Ok? ==> forall s :: s in r.value <==> s in st.subscriptions && s.customerId == customerId
    ensures r.Ok? ==>
      var idx := Positions(st.subscriptions, SubscriptionOf(customerId));
      |r.value| == |idx| && forall i :: 0 <= i < |idx| ==> r.value[i] == st.subscriptions[idx[i]]
  {
    if GetCustomerSubscriptionsOp in st.faults then Fault(st.faults[GetCustomerSubscriptionsOp])
    else Ok(Filter(st.subscriptions, SubscriptionOf(customerId)))
  }

  /** The first subscription with this id whose status is "active". */
  function FindActiveSubscription(st: Store, subscriptionId: string): (r: Res<Option<Subscription>>)
    ensures r.Fault? <==> FindSubscriptionOp in st.faults
    ensures r.Ok? ==> (r.value.None? <==> forall s :: s in st.subscriptions ==> s.subscriptionId != subscriptionId || s.status != "active")
    ensures r.Ok? && r.value.Some? ==>
      r.value.value in st.subscriptions && r.value.value.subscriptionId == subscriptionId && r.value.value.status == "active"
    ensures r.Ok? && r.value.Some? ==>
      exists k :: 0 <= k < |st.subscriptions| && st.subscriptions[k] == r.value.value &&
        forall j :: 0 <= j < k ==> !(st.subscriptions[j].subscriptionId == subscriptionId && st.subscriptions[j].status == "active")
  {
    if FindSubscriptionOp in st.faults then Fault(st.faults[FindSubscriptionOp])
    else
      match FirstIndex(st.subscriptions, (s: Subscription) => s.subscriptionId == subscriptionId && s.status == "active")
      case None => Ok(None)
      case Some(k) => Ok(Some(st.subscriptions[k]))
  }

  /** `k` is the position of the first subscription with this id. */
  predicate FirstWithId(subs: seq<Subscription>, subscriptionId: string, k: int) {
    && 0 <= k < |subs|
    && subs[k].subscriptionId == subscriptionId
    && (forall j :: 0 <= j < k ==> subs[j].subscriptionId != subscriptionId)
  }

  /**
   * Sets the status of the first subscription with this id. The boolean is the
   * store's "modified" count: false when there is no such subscription or its
   * status already had that value.
   */
  function SetSubscriptionStatus(st: Store, subscriptionId: string, status: string): (w: Write<bool>)
    ensures w.result.Fault? <==> UpdateSubscriptionOp in st.faults
    ensures w.result.Fault? ==> w.store == st
    ensures w.store.(subscriptions := st.subscriptions) == st
    ensures |w.store.subscriptions| == |st.subscriptions|
    ensures w.result.Ok? ==> (w.result.value <==>
      exists k :: FirstWithId(st.subscriptions, subscriptionId, k) && st.subscriptions[k].status != status)
    ensures w.result.Ok? ==> forall k :: FirstWithId(st.subscriptions, subscriptionId, k) ==>
      w.store.subscriptions[k] == st.subscriptions[k].(status := status)
    ensures forall i :: 0 <= i < |st.subscriptions| && st.subscriptions[i].subscriptionId != subscriptionId ==>
      w.store.subscriptions[i] == st.subscriptions[i]
    ensures forall i :: 0 <= i < |st.subscriptions| && !FirstWithId(st.subscriptions, subscriptionId, i) ==>
      w.store.subscriptions[i] == st.subscriptions[i]
  {
    if UpdateSubscriptionOp in st.faults then Write(Fault(st.faults[UpdateSubscriptionOp]), st)
    else
      match FirstIndex(st.subscriptions, (s: Subscription) => s.subscriptionId == subscriptionId)
      case None => Write(Ok(false), st)
      case Some(k) =>
        var s := st.subscriptions[k];
        Write(Ok(s.status != status), st.(subscriptions := st.subscriptions[k := s.(status := status)]))
  }

  /** `st'` differs from `st` at most in the wallet balance of customer `customerId`. */
  predicate OnlyWalletOf(st: Store, st': Store, customerId: string) {
    && st'.orders == st.orders
    && st'.payments == st.payments
    && st'.subscriptions == st.subscriptions
    && st'.escalations == st.escalations
    && st'.faults == st.faults
    && st'.customers.Keys == st.customers.Keys
    && (forall c :: c in st.customers && c != customerId ==> st'.customers[c] == st.customers[c])
    && (customerId in st.customers ==>
          st'.customers[customerId] == st.customers[customerId].(walletBalance := st'.customers[customerId].walletBalance))
  }

  /** `st'` is `st` with exactly one pending escalation for this case and customer appended. */
  predicate AppendsEscalation(st: Store, st': Store, caseId: string, customerId: string) {
    && |st'.escalations| == |st.escalations| + 1
    && st'.escalations[..|st.escalations|] == st.escalations
    && st' == st.(escalations := st'.escalations)
    && st'.escalations[|st.escalations|].caseId == caseId
    && st'.escalations[|st.escalations|].customerId == customerId
    && st'.escalations[|st.escalations|].status == EscalationPending
  }
}

=== FILE: string_order.dfy ===
/**
 * Python's `<` on strings: lexicographic by code point, a proper prefix
 * sorting first. Order dates are compared with it as stored text.
 */
module StringOrder {

  /** `a` sorts strictly before `b`. */
  predicate Below(a: string, b: string)
    decreases |a|
  {
    |b| > 0 && (|a| == 0 || a[0] < b[0] || (a[0] == b[0] && Below(a[1..], b[1..])))
  }

  lemma {:induction false} BelowIrreflexive(a: string)
    ensures !Below(a, a)
    decreases |a|
  {
    if |a| > 0 {
      BelowIrreflexive(a[1..]);
    }
  }

  lemma {:induction false} BelowAsymmetric(a: string, b: string)
    ensures Below(a, b) ==> !Below(b, a)
    decreases |a|
  {
    if |a| > 0 && |b| > 0 && a[0] == b[0] {
      BelowAsymmetric(a[1..], b[1..]);
    }
  }

  lemma {:induction false} BelowTransitive(a: string, b: string, c: string)
    ensures Below(a, b) && Below(b, c) ==> Below(a, c)
    decreases |a|
  {
    if |a| > 0 && |b| > 0 && |c| > 0 && a[0] == b[0] && b[0] == c[0] {
      BelowTransitive(a[1..], b[1..], c[1..]);
    }
  }

  /** Any two distinct strings are ordered one way or the other. */
  lemma {:induction false} BelowTotal(a: string, b: string)
    ensures a == b || Below(a, b) || Below(b, a)
    decreases |a|
  {
    if |a| > 0 && |b| > 0 && a[0] == b[0] {
      BelowTotal(a[1..], b[1..]);
      if a[1..] == b[1..] {
        assert a == [a[0]] + a[1..] && b == [b[0]] + b[1..];
      }
    }
  }

  /** "Not below" (that is, at least) is transitive. */
  lemma AtLeastTransitive(a: string, b: string, c: string)
    requires !Below(a, b) && !Below(b, c)
    ensures !Below(a, c)
  {
    BelowTotal(a, b);
    BelowTotal(b, c);
    BelowTransitive(c, b, a);
    BelowAsymmetric(c, a);
    BelowIrreflexive(a);
  }
}

=== FILE: subscriptions.dfy ===
/**
 * Subscription management (src/subscription_manager.py:30-92): listing a
 * customer's subscriptions, cancelling one, and the delivery reminder sent
 * one to three days ahead. The clock and the date parser are a parameter:
 * `daysUntil(date)` is the number of days from today to `date`, or `None`
 * when `date` is not of the form YYYY-MM-DD.
 */
module Subscriptions {
  import opened Wrappers
  import opened Records
  import opened Store

  /** The listing of one customer, what a caller sees: a store fault reads as no subscriptions (line 36-38). */
  function CustomerSubscriptions(st: Store, customerId: string): (r: seq<Subscription>)
    ensures GetCustomerSubscriptionsOp in st.faults ==> r == []
    ensures forall s :: s in r ==> s in st.subscriptions && s.customerId == customerId
    ensures GetCustomerSubscriptionsOp !in st.faults ==>
      forall s :: s in st.subscriptions && s.customerId == customerId ==> s in r
    ensures GetCustomerSubscriptionsOp !in st.faults ==> r == GetCustomerSubscriptions(st, customerId).value
  {
    match GetCustomerSubscriptions(st, customerId)
    case Fault(_) => []
    case Ok(subs) => subs
  }

  /** The outcome of a cancellation: whether it took effect, and the store after it. */
  datatype Cancellation = Cancellation(cancelled: bool, store: Store)

  /**
   * Sets the status of the first subscription with this id to "cancelled"
   * (lines 40-53). The answer is true only when a status actually changed; a
   * store fault answers false and writes nothing.
   */
  function CancelSubscription(st: Store, subscriptionId: string): (c: Cancellation)
    ensures c.cancelled <==>
      && UpdateSubscriptionOp !in st.faults
      && exists k :: FirstWithId(st.subscriptions, subscriptionId, k) && st.subscriptions[k].status != "cancelled"
    ensures UpdateSubscriptionOp in st.faults ==> c.store == st
    ensures c.store.(subscriptions := st.subscriptions) == st
    ensures |c.store.subscriptions| == |st.subscriptions|
    ensures forall i :: 0 <= i < |st.subscriptions| && st.subscriptions[i].subscriptionId != subscriptionId ==>
      c.store.subscriptions[i] == st.subscriptions[i]
    ensures UpdateSubscriptionOp !in st.faults ==> forall k :: FirstWithId(st.subscriptions, subscriptionId, k) ==>
      c.store.subscriptions[k] == st.subscriptions[k].(status := "cancelled")
    ensures forall i :: 0 <= i < |st.subscriptions| && !FirstWithId(st.subscriptions, subscriptionId, i) ==>
      c.store.subscriptions[i] == st.subscriptions[i]
  {
    var w := SetSubscriptionStatus(st, subscriptionId, "cancelled");
    match w.result
    case Fault(_) => Cancellation(false, st)
    case Ok(modified) => Cancellation(modified, w.store)
  }

  /** Cancelling again changes nothing and answers false: the store reports no modification. */
  lemma CancelTwice(st: Store, subscriptionId: string)
    ensures var c1 := CancelSubscription(st, subscriptionId);
      var c2 := CancelSubscription(c1.store, subscriptionId);
      !c2.cancelled && c2.store == c1.store
  {
    var c1 := CancelSubscription(st, subscriptionId);
    var subs := c1.store.subscriptions;
    if UpdateSubscriptionOp !in st.faults {
      forall k | FirstWithId(subs, subscriptionId, k)
        ensures subs[k].status == "cancelled"
      {
        forall j | 0 <= j < k
          ensures st.subscriptions[j].subscriptionId != subscriptionId
        {
          assert subs[j].subscriptionId == st.subscriptions[j].subscriptionId;
        }
        assert FirstWithId(st.subscriptions, subscriptionId, k);
      }
      var c2 := CancelSubscription(c1.store, subscriptionId);
      assert c2.store.subscriptions == subs;
    }
  }

  /** Cancelling never removes a subscription: every one listed before is still listed, by id. */
  lemma CancelKeepsListing(st: Store, subscriptionId: string, customerId: string)
    requires GetCustomerSubscriptionsOp !in st.faults
    ensures var after := CancelSubscription(st, subscriptionId).store;
      forall s :: s in CustomerSubscriptions(st, customerId) ==>
        exists s' :: s' in CustomerSubscriptions(after, customerId) && s'.subscriptionId == s.subscriptionId
  {
    var after := CancelSubscription(st, subscriptionId).store;
    forall s | s in CustomerSubscriptions(st, customerId)
      ensures exists s' :: s' in CustomerSubscriptions(after, customerId) && s'.subscriptionId == s.subscriptionId
    {
      var i :| 0 <= i < |st.subscriptions| && st.subscriptions[i] == s;
      var s' := after.subscriptions[i];
      assert s'.customerId == s.customerId && s'.subscriptionId == s.subscriptionId;
      assert s' in after.subscriptions;
    }
  }

  /** The comma-separated item list of a reminder; `JoinHoldsName` and `JoinHoldsSeparator` say where each name and separator sits. */
  function Join(names: seq<string>, sep: string): (r: string)
    ensures |names| == 0 ==> r == ""
    ensures |names| > 0 ==> |r| == Place(names, sep, |names| - 1) + |names[|names| - 1]|
    ensures |names| > 0 ==> |names[0]| <= |r| && r[..|names[0]|] == names[0]
  {
    if |names| == 0 then ""
    else if |names| == 1 then names[0]
    else
      var rest := Join(names[1..], sep);
      PlaceShift(names, names[1..], sep, |names| - 1);
      assert names[1..][|names| - 2] == names[|names| - 1];
      names[0] + sep + rest
  }

  /** Where the `i`-th name starts in the joined list: after each earlier name and its separator. */
  function Place(names: seq<string>, sep: string, i: nat): nat
    requires i <= |names|
  {
    if i == 0 then 0 else Place(names, sep, i - 1) + |names[i - 1]| + |sep|
  }

  function TotalLength(names: seq<string>): nat {
    if |names| == 0 then 0 else |names[0]| + TotalLength(names[1..])
  }

  /** A place in the tail moves by the first name and one separator. */
  lemma {:induction false} PlaceShift(names: seq<string>, tail: seq<string>, sep: string, i: nat)
    requires 1 <= i <= |names| && tail == names[1..]
    ensures Place(names, sep, i) == |names[0]| + |sep| + Place(tail, sep, i - 1)
    decreases i
  {
    if i > 1 {
      PlaceShift(names, tail, sep, i - 1);
      assert tail[i - 2] == names[i - 1];
    }
  }

  /** A list of two names or more joins as its first name, a separator and the joined rest. */
  lemma JoinFront(names: seq<string>, sep: string)
    requires |names| >= 2
    ensures Join(names, sep) == names[0] + sep + Join(names[1..], sep)
  {
  }

  /** The joined list is as long as the names together plus one separator between each pair. */
  lemma {:induction false} JoinLength(names: seq<string>, sep: string)
    requires |names| > 0
    ensures |Join(names, sep)| == TotalLength(names) + (|names| - 1) * |sep|
  {
    if |names| >= 2 {
      JoinFront(names, sep);
      JoinLength(names[1..], sep);
      assert (|names| - 1) * |sep| == |sep| + (|names| - 2) * |sep|;
    }
  }

  /** Slicing past a prefix slices the rest. */
  lemma SliceAfter(head: string, rest: string, lo: nat, hi: nat)
    requires lo <= hi <= |rest|
    ensures (head + rest)[|head| + lo..|head| + hi] == rest[lo..hi]
  {
  }

  /** The joined list holds the `i`-th name at its place. */
  lemma {:induction false} JoinHoldsName(names: seq<string>, sep: string, i: nat)
    requires i < |names|
    ensures var r := Join(names, sep);
      && Place(names, sep, i) + |names[i]| <= |r|
      && r[Place(names, sep, i)..Place(names, sep, i) + |names[i]|] == names[i]
  {
    if |names| == 1 {
      assert Join(names, sep) == names[0];
    } else if i > 0 {
      JoinHoldsName(names[1..], sep, i - 1);
      NameMovesToFront(names, names[1..], sep, i);
    }
  }

  /** The inductive step of `JoinHoldsName`: a name of the tail, at its place in the whole list. */
  lemma NameMovesToFront(names: seq<string>, tail: seq<string>, sep: string, i: nat)
    requires 0 < i < |names| && tail == names[1..]
    requires Place(tail, sep, i - 1) + |tail[i - 1]| <= |Join(tail, sep)|
    requires Join(tail, sep)[Place(tail, sep, i - 1)..Place(tail, sep, i - 1) + |tail[i - 1]|] == tail[i - 1]
    ensures var r := Join(names, sep);
      && Place(names, sep, i) + |names[i]| <= |r|
      && r[Place(names, sep, i)..Place(names, sep, i) + |names[i]|] == names[i]
  {
    var rest := Join(tail, sep);
    var head := names[0] + sep;
    var o := Place(tail, sep, i - 1);
    assert tail[i - 1] == names[i];
    JoinFront(names, sep);
    PlaceShift(names, tail, sep, i);
    SliceAfter(head, rest, o, o + |names[i]|);
  }

  /** The joined list holds the separator between the `i`-th name and the next, and nothing else. */
  lemma {:induction false} JoinHoldsSeparator(names: seq<string>, sep: string, i: nat)
    requires i + 1 < |names|
    ensures var r := Join(names, sep);
      && Place(names, sep, i + 1) <= |r|
      && r[Place(names, sep, i) + |names[i]|..Place(names, sep, i + 1)] == sep
  {
    var tail := names[1..];
    if i == 0 {
      var rest := Join(tail, sep);
      JoinFront(names, sep);
      assert (names[0] + sep + rest)[|names[0]|..|names[0]| + |sep|] == sep;
    } else {
      JoinHoldsSeparator(tail, sep, i - 1);
      SeparatorMovesToFront(names, tail, sep, i);
    }
  }

  /** The inductive step of `JoinHoldsSeparator`: a separator of the tail, at its place in the whole list. */
  lemma SeparatorMovesToFront(names: seq<string>, tail: seq<string>, sep: string, i: nat)
    requires 0 < i && i + 1 < |names| && tail == names[1..]
    requires Place(tail, sep, i) <= |Join(tail, sep)|
    requires Join(tail, sep)[Place(tail, sep, i - 1) + |tail[i - 1]|..Place(tail, sep, i)] == sep
    ensures var r := Join(names, sep);
      && Place(names, sep, i + 1) <= |r|
      && r[Place(names, sep, i) + |names[i]|..Place(names, sep, i + 1)] == sep
  {
    var rest := Join(tail, sep);
    var head := names[0] + sep;
    var o := Place(tail, sep, i - 1) + |tail[i - 1]|;
    var p := Place(tail, sep, i);
    assert tail[i - 1] == names[i];
    JoinFront(names, sep);
    PlaceShift(names, tail, sep, i);
    PlaceShift(names, tail, sep, i + 1);
    SliceAfter(head, rest, o, p);
  }

  /** The item names, or `None` when the list or some item's name is missing (a `KeyError`, line 67). */
  function ItemNames(items: Option<seq<Item>>): (r: Option<seq<string>>)
    ensures r.Some? <==> items.Some? && forall i :: 0 <= i < |items.value| ==> items.value[i].name.Some?
    ensures r.Some? ==> |r.value| == |items.value| && forall i :: 0 <= i < |r.value| ==> r.value[i] == items.value[i].name.value
  {
    match items
    case None => None
    case Some(list) => NamesOf(list)
  }

  function NamesOf(list: seq<Item>): (r: Option<seq<string>>)
    ensures r.Some? <==> forall i :: 0 <= i < |list| ==> list[i].name.Some?
    ensures r.Some? ==> |r.value| == |list| && forall i :: 0 <= i < |r.value| ==> r.value[i] == list[i].name.value
  {
    if |list| == 0 then Some([])
    else
      match list[0].name
      case None => None
      case Some(n) =>
        match NamesOf(list[1..])
        case None =>
          assert exists i :: 1 <= i < |list| && list[i].name.None? by {
            var i :| 0 <= i < |list[1..]| && list[1..][i].name.None?;
            assert list[i + 1] == list[1..][i];
          }
          None
        case Some(rest) => Some([n] + rest)
  }

  /** How far ahead the delivery is: the reminder speaks of "tomorrow" or only of the date. */
  datatype Window = Tomorrow | Soon

  /** The reminder window of a delivery `days` away; none outside one to three days. */
  function WindowFor(days: int): (w: Option<Window>)
    ensures w == Some(Tomorrow) <==> days == 1
    ensures w == Some(Soon) <==> 2 <= days <= 3
    ensures w.None? <==> days < 1 || 3 < days
  {
    if days == 1 then Some(Tomorrow)
    else if 2 <= days <= 3 then Some(Soon)
    else None
  }

  /** A reminder as the manager returns it. */
  datatype Notification = Notification(message: string, subscriptionId: string, deliveryDate: string)

  /** The reminder's opening, up to and including the item list. */
  function ReminderHead(subscriptionId: string, items: string): string {
    "Reminder: Your planned order " + subscriptionId + " will restock " + items
  }

  function WindowWords(w: Window): string {
    match w
    case Tomorrow => " tomorrow on "
    case Soon => " on "
  }

  function ReminderText(subscriptionId: string, items: string, date: string, kind: string, w: Window): string {
    ReminderHead(subscriptionId, items) + WindowWords(w) + date + " (" + kind + ")."
  }

  /**
   * `m` reads as `head`, then `words`, then `date`, then the subscription type
   * in parentheses followed by a full stop.
   */
  predicate Reads(m: string, head: string, words: string, date: string, kind: string) {
    var n := |head| + |words|;
    && |m| == n + |date| + |kind| + 4
    && m[..|head|] == head
    && m[|head|..n] == words
    && m[n..n + |date|] == date
    && m[n + |date|..n + |date| + 2] == " ("
    && m[n + |date| + 2..|m| - 2] == kind
    && m[|m| - 2..] == ")."
  }

  lemma ReminderShape(subscriptionId: string, items: string, date: string, kind: string, w: Window)
    ensures Reads(ReminderText(subscriptionId, items, date, kind, w), ReminderHead(subscriptionId, items), WindowWords(w), date, kind)
  {
    var h := ReminderHead(subscriptionId, items);
    var ww := WindowWords(w);
    var m := ReminderText(subscriptionId, items, date, kind, w);
    var n := |h| + |ww|;
    var p1 := h + ww;
    var p2 := p1 + date;
    var p3 := p2 + " (";
    var p4 := p3 + kind;
    assert m == p4 + ").";
    assert m[..|p4|] == p4 && m[|p4|..] == ").";
    assert m[..|p3|] == p4[..|p3|] == p3;
    assert m[..|p2|] == p3[..|p2|] == p2;
    assert m[..|p1|] == p2[..|p1|] == p1;
    assert m[..|h|] == p1[..|h|] == h;
    assert m[|h|..n] == p1[|h|..] == ww;
    assert m[n..n + |date|] == p2[|p1|..] == date;
    assert m[n + |date|..n + |date| + 2] == p3[|p2|..] == " (";
    assert m[n + |date| + 2..|m| - 2] == p4[|p3|..] == kind;
  }

  /**
   * The two windows give the same reminder except for the word "tomorrow",
   * put in after the item list; so they never give the same text.
   */
  lemma WindowsRead(subscriptionId: string, items: string, date: string, kind: string)
    ensures var head := ReminderHead(subscriptionId, items);
      var soon := ReminderText(subscriptionId, items, date, kind, Soon);
      && soon[..|head|] == head
      && ReminderText(subscriptionId, items, date, kind, Tomorrow) == head + " tomorrow" + soon[|head|..]
    ensures ReminderText(subscriptionId, items, date, kind, Tomorrow) != ReminderText(subscriptionId, items, date, kind, Soon)
  {
    var head := ReminderHead(subscriptionId, items);
    var tail := " on " + date + " (" + kind + ").";
    var soon := ReminderText(subscriptionId, items, date, kind, Soon);
    assert soon == head + tail;
    assert soon[..|head|] == head && soon[|head|..] == tail;
    assert ReminderText(subscriptionId, items, date, kind, Tomorrow) == head + " tomorrow" + tail;
  }

  /** The subscription is due a reminder: a non-empty delivery date one to three days ahead and named items. */
  predicate Due(sub: Subscription, daysUntil: string -> Option<int>) {
    && sub.deliveryDate.Some? && sub.deliveryDate.value != ""
    && daysUntil(sub.deliveryDate.value).Some?
    && 1 <= daysUntil(sub.deliveryDate.value).value <= 3
    && ItemNames(sub.items).Some?
  }

  /**
   * `n` is the reminder for a due subscription `sub`: it carries the id and the
   * date, and its text reads as the opening with the joined item names, the
   * window words for the day count, the date and the type ("weekly" when unset).
   */
  predicate IsReminder(n: Notification, sub: Subscription, subscriptionId: string, daysUntil: string -> Option<int>)
    requires Due(sub, daysUntil)
  {
    var date := sub.deliveryDate.value;
    var head := ReminderHead(subscriptionId, Join(ItemNames(sub.items).value, ", "));
    && n.subscriptionId == subscriptionId
    && n.deliveryDate == date
    && Reads(n.message, head, if daysUntil(date).value == 1 then " tomorrow on " else " on ", date, sub.subscriptionType.GetOr("weekly"))
  }

  /**
   * The reminder for the result of looking the active subscription up (lines
   * 59-92). A failed lookup, a missing subscription, a missing or empty date,
   * an unparsable date, missing item names or a delivery outside one to three
   * days all give no reminder. The subscription type defaults to "weekly".
   */
  function Notify(found: Res<Option<Subscription>>, subscriptionId: string, daysUntil: string -> Option<int>): (r: Option<Notification>)
    ensures r.Some? <==> found.Ok? && found.value.Some? && Due(found.value.value, daysUntil)
    ensures r.Some? ==> IsReminder(r.value, found.value.value, subscriptionId, daysUntil)
  {
    match found
    case Fault(_) => None
    case Ok(None) => None
    case Ok(Some(sub)) =>
      match sub.deliveryDate
      case None => None
      case Some(date) =>
        if date == "" then None
        else
          match daysUntil(date)
          case None => None
          case Some(days) =>
            match ItemNames(sub.items)
            case None => None
            case Some(names) =>
              var kind := sub.subscriptionType.GetOr("weekly");
              match WindowFor(days)
              case None => None
              case Some(w) =>
                var items := Join(names, ", ");
                ReminderShape(subscriptionId, items, date, kind, w);
                Some(Notification(ReminderText(subscriptionId, items, date, kind, w), subscriptionId, date))
  }

  /** The reminder for an active subscription looked up in the subscriptions collection. */
  function GetNotification(st: Store, subscriptionId: string, daysUntil: string -> Option<int>): (r: Option<Notification>)
    ensures FindSubscriptionOp in st.faults ==> r.None?
    ensures (forall s :: s in st.subscriptions ==> s.subscriptionId != subscriptionId || s.status != "active") ==> r.None?
    ensures r.Some? ==>
      exists s :: s in st.subscriptions && s.subscriptionId == subscriptionId && s.status == "active" && Due(s, daysUntil) && s.deliveryDate == Some(r.value.deliveryDate)
    ensures r.Some? ==> r.value.subscriptionId == subscriptionId
    ensures FindSubscriptionOp !in st.faults ==>
      var found := FindActiveSubscription(st, subscriptionId).value;
      && (r.Some? <==> found.Some? && Due(found.value, daysUntil))
      && (r.Some? ==> IsReminder(r.value, found.value, subscriptionId, daysUntil))
  {
    Notify(FindActiveSubscription(st, subscriptionId), subscriptionId, daysUntil)
  }

  /** The exception raised by reading a `subscriptions` attribute the store handler does not have (line 59). */
  const NoSubscriptionsAttribute := "'MongoDBHandler' object has no attribute 'subscriptions'"

  /**
   * The reminder as line 59 computes it: the lookup goes through an attribute
   * the handler lacks, so it raises, and the handler at line 90 answers `None`
   * whatever the store holds.
   */
  function GetNotificationAsWritten(st: Store, subscriptionId: string, daysUntil: string -> Option<int>): (r: Option<Notification>)
    ensures r.None?
  {
    Notify(Fault(NoSubscriptionsAttribute), subscriptionId, daysUntil)
  }

  const Weekly: Subscription := Subscription("S1", "C1", "active", Some("2024-05-02"), Some([Item(Some("milk"))]), None)

  /** A subscription due tomorrow gets its reminder from the lookup, and none as written. */
  lemma NotificationLostAsWritten()
    ensures var st := Store(map[], [], [], [Weekly], [], map[]);
      var tomorrow := (d: string) => Some(1);
      && GetNotification(st, "S1", tomorrow).Some?
      && GetNotificationAsWritten(st, "S1", tomorrow).None?
  {
    var st := Store(map[], [], [], [Weekly], [], map[]);
    assert FindActiveSubscription(st, "S1") == Ok(Some(Weekly)) by {
      assert st.subscriptions[0] == Weekly;
    }
    assert ItemNames(Weekly.items).Some?;
  }

  /**
   * After a cancellation took effect, a subscription whose id is unique gets
   * no more reminders.
   */
  lemma CancelledGetsNoReminder(st: Store, subscriptionId: string, daysUntil: string -> Option<int>)
    requires UpdateSubscriptionOp !in st.faults
    requires forall i, j :: 0 <= i < j < |st.subscriptions| && st.subscriptions[i].subscriptionId == subscriptionId ==>
      st.subscriptions[j].subscriptionId != subscriptionId
    ensures GetNotification(CancelSubscription(st, subscriptionId).store, subscriptionId, daysUntil).None?
  {
    var after := CancelSubscription(st, subscriptionId).store;
    forall s | s in after.subscriptions
      ensures s.subscriptionId != subscriptionId || s.status != "active"
    {
      var i :| 0 <= i < |after.subscriptions| && after.subscriptions[i] == s;
      if s.subscriptionId == subscriptionId {
        assert st.subscriptions[i].subscriptionId == subscriptionId;
        assert FirstWithId(st.subscriptions, subscriptionId, i);
      }
    }
  }
}

=== FILE: workflow.dfy ===
/**
 * The request-resolution workflow (src/resolution_engine.py:187-446): an
 * order-context stage, a router, and two terminal handlers, run as a fixed
 * sequence of functions that thread the store. The image oracle's reply is an
 * input; it is consulted at most once per request.
 */
module Workflow {
  import opened Wrappers
  import opened Records
  import opened Store
  import opened OrderIds
  import opened RecentOrder
  import opened Oracle
  import opened Refund

  /**
   * Intent labels; any label outside the five named ones is `OtherIntent`.
   * `OtherIntent` is reserved for those labels: built with a known label it
   * would stand for the same label as one of the five.
   */
  datatype Intent = RefundRequest | WalletIssue | DeliveryIssue | PaymentProblem | OrderStatus | OtherIntent(name: string)

  /** The five labels the workflow compares the intent with. */
  const KnownLabels: set<string> := {"REFUND_REQUEST", "WALLET_ISSUE", "DELIVERY_ISSUE", "PAYMENT_PROBLEM", "ORDER_STATUS"}

  /** The label an intent stands for. */
  function LabelOf(i: Intent): (l: string)
    ensures !i.OtherIntent? ==> l in KnownLabels
  {
    match i
    case RefundRequest => "REFUND_REQUEST"
    case WalletIssue => "WALLET_ISSUE"
    case DeliveryIssue => "DELIVERY_ISSUE"
    case PaymentProblem => "PAYMENT_PROBLEM"
    case OrderStatus => "ORDER_STATUS"
    case OtherIntent(name) => name
  }

  /** The intent a label selects: one of the five when it is theirs, `OtherIntent` for every other string. */
  function IntentOf(name: string): (i: Intent)
    ensures i.OtherIntent? <==> name !in KnownLabels
    ensures LabelOf(i) == name
  {
    if name == "REFUND_REQUEST" then RefundRequest
    else if name == "WALLET_ISSUE" then WalletIssue
    else if name == "DELIVERY_ISSUE" then DeliveryIssue
    else if name == "PAYMENT_PROBLEM" then PaymentProblem
    else if name == "ORDER_STATUS" then OrderStatus
    else OtherIntent(name)
  }

  /** Every intent whose `OtherIntent` name is not a known label is the one its label selects. */
  lemma IntentLabelRoundTrip(i: Intent)
    requires i.OtherIntent? ==> i.name !in KnownLabels
    ensures IntentOf(LabelOf(i)) == i
  {
    if i.OtherIntent? {
      assert LabelOf(i) !in KnownLabels;
    }
  }

  /** The per-request workflow state. */
  datatype State = State(
    intent: Intent,
    message: string,
    customerId: string,
    caseId: string,
    orderId: Option<string>,
    orderData: Option<Order>,
    image: Option<Image>,
    refundAmount: Option<real>,
    status: Status,
    response: Message,
    validation: Option<Verdict>)

  /** The outcome of a stage (its state, or the fault it raised) with the store after it. */
  datatype Run = Run(result: Res<State>, store: Store)

  /** The three edges leaving the order-context stage. */
  datatype Next = ToRefundDecision | ToOtherIntents | ToEnd

  /** What `process_request` returns to its caller. */
  datatype Response = Response(
    status: Status,
    message: Message,
    caseId: string,
    orderId: Option<string>,
    validation: Option<Verdict>,
    error: Option<string>)

  datatype Outcome = Outcome(result: Res<Response>, store: Store)

  /** The state a request starts from (line 393-405): status `Pending`. */
  function Initial(intent: Intent, message: string, customerId: string, caseId: string, image: Option<Image>, refundAmount: Option<real>): State {
    State(intent, message, customerId, caseId, None, None, image, refundAmount, Pending, Processing, None)
  }

  /** Order data is only ever present together with the order id it was loaded by. */
  predicate Consistent(s: State) {
    s.orderData.Some? ==> s.orderId.Some? && s.orderData.value.orderId == s.orderId.value
  }

  /** A stage keeps the request's own fields. */
  predicate SameRequest(s: State, t: State) {
    && t.intent == s.intent
    && t.message == s.message
    && t.customerId == s.customerId
    && t.caseId == s.caseId
    && t.image == s.image
  }

  /**
   * A stage either ends escalated having appended exactly one escalation for
   * this case, or appends none, changes at most the customer's wallet balance
   * and does not newly escalate.
   */
  predicate Disciplined(s: State, t: State, st: Store, st': Store) {
    || (t.status == Escalated && AppendsEscalation(st, st', s.caseId, s.customerId))
    || (OnlyWalletOf(st, st', s.customerId) && (t.status == Escalated ==> s.status == Escalated))
  }

  /** A terminal handler keeps the order context it was given. */
  predicate SameOrder(s: State, t: State) {
    t.orderId == s.orderId && t.orderData == s.orderData && t.refundAmount == s.refundAmount
  }

  /** A state as the graph is entered with it: nothing looked up or decided yet. */
  predicate Fresh(s: State) {
    && s.orderId.None?
    && s.orderData.None?
    && s.status == Pending
    && s.validation.None?
  }

  /** Sets the escalated status and response, then records an escalation; a store fault propagates. */
  function EscalateWith(s: State, st: Store, response: Message, details: Detail): (r: Run)
    ensures r.result.Fault? <==> AddEscalationOp in st.faults
    ensures r.result.Fault? ==> r.store == st
    ensures r.result.Ok? ==> r.result.value == s.(status := Escalated, response := response)
    ensures r.result.Ok? ==> AppendsEscalation(st, r.store, s.caseId, s.customerId)
    ensures r.result.Ok? ==> r.store.escalations[|st.escalations|].details == details
  {
    var w := AddEscalation(st, s.caseId, s.customerId, details);
    match w.result
    case Fault(e) => Run(Fault(e), st)
    case Ok(_) => Run(Ok(s.(status := Escalated, response := response)), w.store)
  }

  /**
   * Records an escalation; when that write raises, the stage's handler tries
   * once more with a fallback response and details built from the error. The
   * second write faults exactly as the first did, so only the first can land.
   */
  function EscalateOrFallBack(s: State, st: Store, response: Message, details: Detail, fallback: Message, fallbackDetails: string -> Detail): (r: Run)
    ensures r.result.Fault? <==> AddEscalationOp in st.faults
    ensures r.result.Fault? ==> r.store == st
    ensures r.result.Ok? ==> r == EscalateWith(s, st, response, details)
  {
    var r0 := EscalateWith(s, st, response, details);
    if r0.result.Fault? then EscalateWith(s, st, fallback, fallbackDetails(r0.result.error)) else r0
  }

  /**
   * The most recent delivered order of the customer (lines 199-205); a store
   * fault is swallowed (line 207).
   */
  function InferOrderId(st: Store, customerId: string): (r: Option<string>)
    ensures GetCustomerOrdersOp in st.faults ==> r.None?
    ensures GetCustomerOrdersOp !in st.faults ==>
      var os := GetCustomerOrders(st, customerId).value;
      && (r.None? <==> forall i :: 0 <= i < |os| ==> !Delivered(os[i]))
      && (r.Some? ==> exists k :: IsMostRecent(os, k) && os[k].orderId == r.value)
    ensures r.Some? ==> exists o :: o in st.orders && o.customerId == customerId && Delivered(o) && o.orderId == r.value
  {
    match GetCustomerOrders(st, customerId)
    case Fault(_) => None
    case Ok(orders) =>
      match MostRecentIndex(orders)
      case None => None
      case Some(k) =>
        assert orders[k] in orders;
        Some(orders[k].orderId)
  }

  /**
   * The refund amount once the order is known (lines 220-221): the given one,
   * unless it is falsy; then the order's total, 0.0 when the key is missing
   * and `None` when it is stored as null.
   */
  function RefundAmountFor(given: Option<real>, order: Order): (r: Option<real>)
    ensures !IsFalsy(given) ==> r == given
    ensures IsFalsy(given) && order.totalAmount.Present? ==> r == Some(order.totalAmount.value)
    ensures IsFalsy(given) && order.totalAmount.Absent? ==> r == Some(0.0)
    ensures r.None? <==> IsFalsy(given) && order.totalAmount.Null?
  {
    if !IsFalsy(given) then given
    else
      match order.totalAmount
      case Absent => Some(0.0)
      case Null => None
      case Present(total) => Some(total)
  }

  /**
   * Order-context stage (lines 187-235). Only refund requests are touched: the
   * order id comes from the message or, with an image and no id, from the most
   * recent delivered order; a missing id or order escalates.
   */
  function FetchOrder(s: State, st: Store): (r: Run)
    ensures s.intent != RefundRequest ==> r == Run(Ok(s), st)
    ensures r.result.Fault? ==> r.store == st && AddEscalationOp in st.faults
    ensures r.result.Ok? ==> SameRequest(s, r.result.value)
    ensures r.result.Ok? ==> Disciplined(s, r.result.value, st, r.store)
    ensures r.result.Ok? && r.result.value.status != Escalated ==> r.store == st && r.result.value.status == s.status
    ensures s.orderData.None? && r.result.Ok? ==> Consistent(r.result.value)
    ensures s.intent == RefundRequest && s.orderData.None? && r.result.Ok? ==>
      r.result.value.status == Escalated || r.result.value.orderData.Some?
    ensures s.intent == RefundRequest && r.result.Ok? && r.result.value.orderData != s.orderData ==>
      var t := r.result.value;
      && t.orderData.Some? && t.orderId.Some?
      && GetOrder(st, t.orderId.value) == Ok(t.orderData)
      && t.refundAmount == RefundAmountFor(s.refundAmount, t.orderData.value)
      && t.status == s.status
      && t.validation == s.validation
    ensures s.intent == RefundRequest && ExtractOrderId(s.message).Some? && r.result.Ok? ==>
      r.result.value.orderId == ExtractOrderId(s.message)
    ensures s.intent == RefundRequest && GetOrderOp in st.faults && r.result.Ok?
            && r.result.value.orderId.Some? && r.result.value.orderId.value != "" ==>
      var t := r.result.value;
      && t == s.(orderId := t.orderId, status := Escalated, response := OrderLookupFailed(t.orderId.value))
      && AppendsEscalation(st, r.store, s.caseId, s.customerId)
      && r.store.escalations[|st.escalations|].details == OrderLookupError(st.faults[GetOrderOp], s.message)
  {
    if s.intent != RefundRequest then Run(Ok(s), st)
    else
      var extracted := ExtractOrderId(s.message);
      var orderId := if extracted.None? && HasImage(s.image) then InferOrderId(st, s.customerId) else extracted;
      var s1 := s.(orderId := orderId);
      // an inferred id may be the empty string, which is falsy
      if orderId.Some? && orderId.value != "" then
        var id := orderId.value;
        match GetOrder(st, id)
        case Fault(e) => EscalateWith(s1, st, OrderLookupFailed(id), OrderLookupError(e, s.message))
        case Ok(None) =>
          // a fault recording the escalation is caught by the handler at line 223
          EscalateOrFallBack(s1, st, OrderMissing(id), OrderNotFoundFor(s.message), OrderLookupFailed(id), e => OrderLookupError(e, s.message))
        case Ok(Some(order)) =>
          Run(Ok(s1.(orderData := Some(order), refundAmount := RefundAmountFor(s.refundAmount, order))), st)
      else EscalateWith(s1, st, AskForOrderId, NoOrderIdGiven(s.message))
  }

  /** The router after the order-context stage (lines 345-356). */
  function Route(s: State): (n: Next)
    ensures n == ToOtherIntents <==> s.intent != RefundRequest
    ensures n == ToRefundDecision <==> s.intent == RefundRequest && s.status != Escalated && s.orderData.Some?
  {
    if s.intent != RefundRequest then ToOtherIntents
    else if s.status == Escalated then ToEnd
    else if s.orderData.None? then ToEnd
    else ToRefundDecision
  }

  /**
   * The validator's verdict becomes the request's status and response
   * (lines 253-260); an escalated verdict is recorded together with the order
   * id, the refund amount and the verdict itself (lines 262-282).
   */
  function ActOnVerdict(s: State, st: Store, v: Verdict): (r: Run)
    ensures r.result.Fault? ==> r.store == st && AddEscalationOp in st.faults
    ensures r.result.Ok? ==>
      var t := r.result.value;
      && SameRequest(s, t) && SameOrder(s, t)
      && t.validation == Some(v) && t.status == v.status
    ensures v.status != Escalated ==> r == Run(Ok(s.(validation := Some(v), status := v.status, response := v.message)), st)
    ensures v.status == Escalated && r.result.Ok? ==>
      && AppendsEscalation(st, r.store, s.caseId, s.customerId)
      && r.store.escalations[|st.escalations|].details == RefundValidationEscalated(s.message, s.orderId, s.refundAmount, v)
    ensures r.store.customers == st.customers
  {
    var s1 := s.(validation := Some(v), status := v.status, response := v.message);
    if v.status == Escalated then
      // a fault recording the escalation is caught by the handler at line 270
      EscalateOrFallBack(s1, st, v.message, RefundValidationEscalated(s.message, s.orderId, s.refundAmount, v),
                         ValidationFailed, e => ValidationError(e, s.message))
    else Run(Ok(s1), st)
  }

  /**
   * Refund decision (lines 237-284): without an image the customer is asked
   * for one; otherwise the validator's verdict becomes the outcome, and an
   * escalated verdict is recorded with the order id, the refund amount and the
   * verdict itself.
   */
  function RefundDecision(s: State, st: Store, reply: OracleReply): (r: Run)
    requires Consistent(s)
    ensures r.result.Fault? ==> r.store == st && AddEscalationOp in st.faults
    ensures r.result.Ok? ==> SameRequest(s, r.result.value) && SameOrder(s, r.result.value)
    ensures r.result.Ok? ==> Disciplined(s, r.result.value, st, r.store)
    ensures !(s.intent == RefundRequest && s.orderData.Some?) ==> r == Run(Ok(s), st)
    ensures s.intent == RefundRequest && s.orderData.Some? && !HasImage(s.image) ==>
      r == Run(Ok(s.(status := PendingImage, response := AskForImage(s.orderId.value))), st)
    ensures s.intent == RefundRequest && s.orderData.Some? && HasImage(s.image) && r.result.Ok? ==>
      var t := r.result.value;
      t.status == Resolved || t.status == Escalated
    ensures r.result.Ok? && r.result.value.status == Resolved && s.status != Resolved ==>
      var t := r.result.value;
      && t.validation.Some?
      && Credited(st, r.store, s.customerId, s.refundAmount, t.validation.value)
      && OracleApproves(reply)
    ensures r.result.Ok? && r.result.value.status != Resolved ==> r.store.customers == st.customers
    ensures r.result.Ok? && r.result.value.status == Escalated && s.status != Escalated
            && r.result.value.validation != s.validation && r.result.value.validation.Some? ==>
      var v := r.result.value.validation.value;
      |r.store.escalations| == |st.escalations| + 1 &&
      r.store.escalations[|st.escalations|].details == RefundValidationEscalated(s.message, s.orderId, s.refundAmount, v)
    ensures s.intent == RefundRequest && s.orderData.Some? && HasImage(s.image)
            && (GetOrderOp in st.faults || GetOrderPaymentOp in st.faults) ==>
      var e := if GetOrderOp in st.faults then st.faults[GetOrderOp] else st.faults[GetOrderPaymentOp];
      && (r.result.Fault? <==> AddEscalationOp in st.faults)
      && (r.result.Ok? ==>
            && r.result.value == s.(status := Escalated, response := ValidationFailed)
            && AppendsEscalation(st, r.store, s.caseId, s.customerId)
            && r.store.escalations[|st.escalations|].details == ValidationError(e, s.message))
  {
    if s.intent == RefundRequest && s.orderData.Some? then
      var id := s.orderId.value;
      if !HasImage(s.image) then Run(Ok(s.(status := PendingImage, response := AskForImage(id))), st)
      else
        var c := ValidateRefund(st, s.customerId, id, s.image, s.refundAmount, reply);
        match c.result
        case Fault(e) => EscalateWith(s, st, ValidationFailed, ValidationError(e, s.message))
        case Ok(v) =>
          ApprovedExactly(st, s.customerId, id, s.image, s.refundAmount, reply);
          ActOnVerdict(s, c.store, v)
    else Run(Ok(s), st)
  }

  /**
   * DELIVERY_ISSUE and ORDER_STATUS: report the order named in the message.
   * With no order id in the message the state is left as it was.
   */
  function ReportOrder(s: State, st: Store, whenMissing: Message): (r: Run)
    ensures r.result.Fault? ==> r.store == st
    ensures ExtractOrderId(s.message).None? ==> r == Run(Ok(s), st)
    ensures ExtractOrderId(s.message).Some? ==>
      var id := ExtractOrderId(s.message).value;
      && (GetOrderOp in st.faults ==> r.result.Fault?)
      && (GetOrderOp !in st.faults && GetOrder(st, id).value.Some? ==>
            var o := GetOrder(st, id).value.value;
            && o.orderId == id
            && r.result == Ok(s.(status := Resolved, response := OrderStatusIs(id, o.status, o.expectedDelivery)))
            && r.store == st)
      && (GetOrderOp !in st.faults && GetOrder(st, id).value.None? ==>
            && (r.result.Fault? <==> AddEscalationOp in st.faults)
            && (r.result.Ok? ==>
                  && r.result.value == s.(status := Escalated, response := whenMissing)
                  && AppendsEscalation(st, r.store, s.caseId, s.customerId)
                  && r.store.escalations[|st.escalations|].details == CustomerText(s.message)))
  {
    match ExtractOrderId(s.message)
    case None => Run(Ok(s), st)
    case Some(id) =>
      match GetOrder(st, id)
      case Fault(e) => Run(Fault(e), st)
      case Ok(None) => EscalateWith(s, st, whenMissing, CustomerText(s.message))
      case Ok(Some(o)) => Run(Ok(s.(status := Resolved, response := OrderStatusIs(id, o.status, o.expectedDelivery))), st)
  }

  /** The response to failed payments: the wallet handler's notice, or the payment handler's count. */
  function FailuresFound(intent: Intent, failed: nat): Message {
    if intent == WalletIssue then PaymentIssuesFound else FailedPaymentCount(failed)
  }

  /**
   * The failed-payment check shared by the wallet and payment handlers
   * (lines 295-304 and 317-326): escalate with the handler's failure response
   * when the customer has failed payments, otherwise resolve with `whenClear`.
   */
  function CheckPayments(s: State, st: Store, whenClear: Message): (r: Run)
    ensures r.result.Fault? <==>
      GetFailedPaymentsOp in st.faults
      || (GetFailedPayments(st, s.customerId).Ok? && |GetFailedPayments(st, s.customerId).value| > 0 && AddEscalationOp in st.faults)
    ensures r.result.Fault? ==> r.store == st
    ensures r.result.Ok? ==>
      var n := |GetFailedPayments(st, s.customerId).value|;
      && (n > 0 ==>
            && r.result.value == s.(status := Escalated, response := FailuresFound(s.intent, n))
            && AppendsEscalation(st, r.store, s.caseId, s.customerId)
            && r.store.escalations[|st.escalations|].details == CustomerText(s.message))
      && (n == 0 ==> r == Run(Ok(s.(status := Resolved, response := whenClear)), st))
  {
    match GetFailedPayments(st, s.customerId)
    case Fault(e) => Run(Fault(e), st)
    case Ok(failed) =>
      if |failed| > 0 then EscalateWith(s, st, FailuresFound(s.intent, |failed|), CustomerText(s.message))
      else Run(Ok(s.(status := Resolved, response := whenClear)), st)
  }

  /** Handler for every intent but refunds (lines 286-343); store faults propagate. */
  function HandleOtherIntents(s: State, st: Store): (r: Run)
    ensures s.intent == RefundRequest ==> r == Run(Ok(s), st)
    ensures r.result.Fault? ==> r.store == st
    ensures r.result.Ok? ==> SameRequest(s, r.result.value) && SameOrder(s, r.result.value)
    ensures r.result.Ok? ==> Disciplined(s, r.result.value, st, r.store)
    ensures r.result.Ok? ==> r.store.customers == st.customers
    ensures s.intent != RefundRequest ==>
      (r.result.Fault? <==>
         GetCustomerOp in st.faults || (s.customerId in st.customers && SecondQueryFaults(s, st)))
    ensures s.intent != RefundRequest && r.result.Ok? && s.customerId !in st.customers ==>
      r == Run(Ok(s.(status := Error, response := CustomerMissing)), st)
    ensures s.intent == WalletIssue && r.result.Ok? && s.customerId in st.customers ==>
      var t := r.result.value;
      && (t.status == Escalated <==> |GetFailedPayments(st, s.customerId).value| > 0)
      && (t.status != Escalated ==> t.status == Resolved && t.response == WalletBalanceIs(st.customers[s.customerId].walletBalance))
    ensures s.intent == PaymentProblem && r.result.Ok? && s.customerId in st.customers ==>
      var t := r.result.value;
      && (t.status == Escalated <==> |GetFailedPayments(st, s.customerId).value| > 0)
      && (t.status == Escalated ==> t.response == FailedPaymentCount(|GetFailedPayments(st, s.customerId).value|))
      && (t.status != Escalated ==> t.status == Resolved)
    ensures s.intent == DeliveryIssue && r.result.Ok? && s.customerId in st.customers ==> r == ReportOrder(s, st, DeliveryUntrackable)
    ensures s.intent == OrderStatus && r.result.Ok? && s.customerId in st.customers ==> r == ReportOrder(s, st, OrderMissingAskAgain)
    ensures s.intent.OtherIntent? && r.result.Ok? && s.customerId in st.customers ==>
      r.result.value.status == Escalated && r.result.value.response == NeedsManualReview
  {
    if s.intent == RefundRequest then Run(Ok(s), st)
    else
      match GetCustomer(st, s.customerId)
      case Fault(e) => Run(Fault(e), st)
      case Ok(None) => Run(Ok(s.(status := Error, response := CustomerMissing)), st)
      case Ok(Some(customer)) =>
        match s.intent
        case WalletIssue => CheckPayments(s, st, WalletBalanceIs(customer.walletBalance))
        case DeliveryIssue => ReportOrder(s, st, DeliveryUntrackable)
        case PaymentProblem => CheckPayments(s, st, NoPaymentIssues)
        case OrderStatus => ReportOrder(s, st, OrderMissingAskAgain)
        case OtherIntent(_) => EscalateWith(s, st, NeedsManualReview, CustomerText(s.message))
  }

  /** The store query after the customer lookup faults, or the escalation that would be written does. */
  predicate SecondQueryFaults(s: State, st: Store) {
    match s.intent
    case WalletIssue => GetFailedPaymentsOp in st.faults
                        || (GetFailedPayments(st, s.customerId).Ok? && |GetFailedPayments(st, s.customerId).value| > 0 && AddEscalationOp in st.faults)
    case PaymentProblem => GetFailedPaymentsOp in st.faults
                        || (GetFailedPayments(st, s.customerId).Ok? && |GetFailedPayments(st, s.customerId).value| > 0 && AddEscalationOp in st.faults)
    case DeliveryIssue => ReportOrder(s, st, DeliveryUntrackable).result.Fault?
    case OrderStatus => ReportOrder(s, st, OrderMissingAskAgain).result.Fault?
    case OtherIntent(_) => AddEscalationOp in st.faults
    case RefundRequest => false
  }

  /** The fixed graph: order context, then the refund decision, the other-intent handler, or the end. */
  function RunGraph(s: State, st: Store, reply: OracleReply): (r: Run)
    requires Fresh(s)
    ensures r.result.Fault? ==> r.store == st
    ensures r.result.Ok? ==> SameRequest(s, r.result.value) && Disciplined(s, r.result.value, st, r.store)
    ensures s.intent != RefundRequest ==> r.store.customers == st.customers
    ensures r.result.Ok? && r.result.value.status != Resolved ==> r.store.customers == st.customers
    ensures r.result.Fault? ==> r.store.customers == st.customers
    ensures r.result.Ok? && r.result.value.status == Resolved && s.intent == RefundRequest ==>
      var t := r.result.value;
      && t.validation.Some?
      && t.orderId.Some? && t.orderData.Some?
      && GetOrder(st, t.orderId.value) == Ok(t.orderData)
      && Credited(st, r.store, s.customerId, RefundAmountFor(s.refundAmount, t.orderData.value), t.validation.value)
      && OracleApproves(reply)
  {
    var r1 := FetchOrder(s, st);
    match r1.result
    case Fault(_) => r1
    case Ok(s1) =>
      match Route(s1)
      case ToRefundDecision => RefundDecision(s1, r1.store, reply)
      case ToOtherIntents => HandleOtherIntents(s1, r1.store)
      case ToEnd => r1
  }

  /**
   * Runs one request (lines 387-446). Any fault raised inside the graph is
   * recorded as an escalation for the same case and answered with a generic
   * technical-issue message; only a fault while recording that escalation
   * reaches the caller.
   */
  function ProcessRequest(st: Store, intent: Intent, message: string, customerId: string, caseId: string,
                          image: Option<Image>, refundAmount: Option<real>, reply: OracleReply): (o: Outcome)
    ensures AddEscalationOp !in st.faults ==> o.result.Ok?
    ensures o.result.Fault? ==> o.store == st
    ensures o.result.Ok? ==> o.result.value.caseId == caseId
    ensures o.result.Ok? && o.result.value.status == Escalated ==> AppendsEscalation(st, o.store, caseId, customerId)
    ensures o.result.Ok? && o.result.value.status != Escalated ==> OnlyWalletOf(st, o.store, customerId)
    ensures intent != RefundRequest ==> o.store.customers == st.customers
    ensures o.result.Ok? && o.result.value.status == Resolved && intent == RefundRequest ==>
      var v := o.result.value.validation;
      && v.Some? && v.value.message.RefundApplied?
      && customerId in st.customers && customerId in o.store.customers
      && o.store.customers[customerId].walletBalance == st.customers[customerId].walletBalance + v.value.message.amount
      && OracleApproves(reply)
    ensures o.store.customers != st.customers ==>
      intent == RefundRequest && o.result.Ok? && o.result.value.status == Resolved
  {
    var r := RunGraph(Initial(intent, message, customerId, caseId, image, refundAmount), st, reply);
    match r.result
    case Ok(s) => Outcome(Ok(Response(s.status, s.response, s.caseId, s.orderId, s.validation, None)), r.store)
    case Fault(e) =>
      var w := AddEscalation(r.store, caseId, customerId, WorkflowError(e, message));
      match w.result
      case Fault(e2) => Outcome(Fault(e2), r.store)
      case Ok(_) => Outcome(Ok(Response(Escalated, WorkflowTechnicalIssue, caseId, None, None, Some(e))), w.store)
  }
}

=== FILE: workflow_facts.dfy ===
/** Properties of whole requests run through the resolution workflow. */
module WorkflowFacts {
  import opened Wrappers
  import opened Records
  import opened Store
  import opened OrderIds
  import opened Oracle
  import opened Refund
  import opened Workflow

  /**
   * After the order-context stage a refund request either goes on to the
   * refund decision or ends, and it ends only escalated, with its escalation
   * already recorded.
   */
  lemma RefundEndsOnlyEscalated(message: string, customerId: string, caseId: string, image: Option<Image>, amount: Option<real>, st: Store)
    ensures var r := FetchOrder(Initial(RefundRequest, message, customerId, caseId, image, amount), st);
      r.result.Ok? ==>
        || Route(r.result.value) == ToRefundDecision
        || (r.result.value.status == Escalated && AppendsEscalation(st, r.store, caseId, customerId))
  {
  }

  /** The order is inferred only when the message names none and an image is present. */
  lemma InferenceOnlyWithImage(message: string, customerId: string, caseId: string, image: Option<Image>, amount: Option<real>, st: Store)
    requires ExtractOrderId(message).None?
    ensures var r := FetchOrder(Initial(RefundRequest, message, customerId, caseId, image, amount), st);
      r.result.Ok? ==> r.result.value.orderId == (if HasImage(image) then InferOrderId(st, customerId) else None)
  {
    var s := Initial(RefundRequest, message, customerId, caseId, image, amount);
    var id := if HasImage(image) then InferOrderId(st, customerId) else None;
    var r := FetchOrder(s, st);
    if r.result.Ok? {
      if id.Some? && id.value != "" {
        match GetOrder(st, id.value)
        case Fault(e) =>
        case Ok(None) =>
        case Ok(Some(order)) =>
      }
      assert r.result.value.orderId == id;
    }
  }

  /** No order id in the message and no image: escalated with a request for a valid order id. */
  lemma NoOrderIdNoImage(st: Store, message: string, customerId: string, caseId: string, image: Option<Image>, amount: Option<real>, reply: OracleReply)
    requires ExtractOrderId(message).None? && !HasImage(image)
    requires AddEscalationOp !in st.faults
    ensures var o := ProcessRequest(st, RefundRequest, message, customerId, caseId, image, amount, reply);
      && o.result == Ok(Response(Escalated, AskForOrderId, caseId, None, None, None))
      && o.store == st.(escalations := st.escalations + [Escalation(caseId, customerId, NoOrderIdGiven(message), EscalationPending)])
  {
  }

  /** A named order that does not exist: escalated, with one escalation. */
  lemma UnknownOrderEscalates(st: Store, message: string, customerId: string, caseId: string, image: Option<Image>, amount: Option<real>, reply: OracleReply)
    requires ExtractOrderId(message).Some? && GetOrder(st, ExtractOrderId(message).value) == Ok(None)
    requires AddEscalationOp !in st.faults
    ensures var o := ProcessRequest(st, RefundRequest, message, customerId, caseId, image, amount, reply);
      && o.result == Ok(Response(Escalated, OrderMissing(ExtractOrderId(message).value), caseId, ExtractOrderId(message), None, None))
      && o.store == st.(escalations := st.escalations + [Escalation(caseId, customerId, OrderNotFoundFor(message), EscalationPending)])
  {
  }

  /** A known order but no usable image: the customer is asked for one; nothing is written. */
  lemma MissingImageAsksForImage(st: Store, message: string, customerId: string, caseId: string, image: Option<Image>, amount: Option<real>, reply: OracleReply)
    requires ExtractOrderId(message).Some? && GetOrder(st, ExtractOrderId(message).value).Ok?
    requires GetOrder(st, ExtractOrderId(message).value).value.Some?
    requires !HasImage(image)
    ensures var o := ProcessRequest(st, RefundRequest, message, customerId, caseId, image, amount, reply);
      && o.result == Ok(Response(PendingImage, AskForImage(ExtractOrderId(message).value), caseId, ExtractOrderId(message), None, None))
      && o.store == st
  {
  }

  /**
   * A resolved refund credited the wallet with the refund amount of the order
   * it names: the amount given, or the order's total when that was falsy.
   */
  lemma ResolvedRefundCreditsOrderAmount(st: Store, message: string, customerId: string, caseId: string, image: Option<Image>, amount: Option<real>, reply: OracleReply)
    ensures var o := ProcessRequest(st, RefundRequest, message, customerId, caseId, image, amount, reply);
      o.result.Ok? && o.result.value.status == Resolved ==>
        && o.result.value.orderId.Some?
        && GetOrder(st, o.result.value.orderId.value).Ok?
        && GetOrder(st, o.result.value.orderId.value).value.Some?
        && var order := GetOrder(st, o.result.value.orderId.value).value.value;
           && order.status != "cancelled"
           && HasImage(image)
           && OracleApproves(reply)
           && o.result.value.validation.Some?
           && Credited(st, o.store, customerId, RefundAmountFor(amount, order), o.result.value.validation.value)
  {
    var s := Initial(RefundRequest, message, customerId, caseId, image, amount);
    var r := RunGraph(s, st, reply);
    if r.result.Ok? && r.result.value.status == Resolved {
      var r1 := FetchOrder(s, st);
      assert r1.result.Ok?;
      var t := r1.result.value;
      assert Route(t) == ToRefundDecision;
      var id := t.orderId.value;
      ApprovedExactly(st, customerId, id, image, t.refundAmount, reply);
    }
  }

  /** The graph runs the order-context stage, then the node the router picks. */
  lemma GraphStages(s: State, st: Store, reply: OracleReply)
    requires Fresh(s)
    ensures var r1 := FetchOrder(s, st);
      r1.result.Ok? ==>
        var t := r1.result.value;
        && (Route(t) == ToRefundDecision ==> RunGraph(s, st, reply) == RefundDecision(t, r1.store, reply))
        && (Route(t) == ToOtherIntents ==> RunGraph(s, st, reply) == HandleOtherIntents(t, r1.store))
        && (Route(t) == ToEnd ==> RunGraph(s, st, reply) == r1)
  {
  }

  /** A graph run that does not fault is answered with its final state and keeps its store. */
  lemma Answered(st: Store, intent: Intent, message: string, customerId: string, caseId: string, image: Option<Image>, amount: Option<real>, reply: OracleReply)
    ensures var r := RunGraph(Initial(intent, message, customerId, caseId, image, amount), st, reply);
      var o := ProcessRequest(st, intent, message, customerId, caseId, image, amount, reply);
      r.result.Ok? ==>
        var t := r.result.value;
        o == Outcome(Ok(Response(t.status, t.response, caseId, t.orderId, t.validation, None)), r.store)
  {
  }

  /** A refund request naming an order the store has moves on with that order and its refund amount. */
  lemma FetchOrderFindsNamedOrder(s: State, st: Store, order: Order)
    requires s.intent == RefundRequest && ExtractOrderId(s.message).Some?
    requires GetOrder(st, ExtractOrderId(s.message).value) == Ok(Some(order))
    ensures FetchOrder(s, st) ==
      Run(Ok(s.(orderId := ExtractOrderId(s.message), orderData := Some(order), refundAmount := RefundAmountFor(s.refundAmount, order))), st)
  {
    assert ExtractOrderId(s.message).value != "" by {
      assert IsOrderRef(ExtractOrderId(s.message).value);
    }
  }

  /**
   * The refund decision on a refundable order with an image and an approving
   * oracle: resolved, and the only write is the customer's balance going up by
   * the refund amount.
   */
  lemma ApprovedDecisionCredits(s: State, st: Store, reply: OracleReply, id: string, order: Order)
    requires Fresh(s) && s.intent == RefundRequest && HasImage(s.image)
    requires GetOrder(st, id) == Ok(Some(order)) && order.orderId == id && order.status != "cancelled"
    requires GetOrderPaymentOp !in st.faults && !Refunded(GetOrderPayment(st, id).value)
    requires OracleApproves(reply)
    requires GetCustomerOp !in st.faults && UpdateWalletBalanceOp !in st.faults && s.customerId in st.customers
    requires RefundAmountFor(s.refundAmount, order).Some?
    ensures var a := RefundAmountFor(s.refundAmount, order);
      var r := RefundDecision(s.(orderId := Some(id), orderData := Some(order), refundAmount := a), st, reply);
      && r.result.Ok?
      && r.result.value.status == Resolved
      && OnlyWalletOf(st, r.store, s.customerId)
      && r.store.customers[s.customerId].walletBalance == st.customers[s.customerId].walletBalance + a.value
  {
    ApprovedExactly(st, s.customerId, id, s.image, RefundAmountFor(s.refundAmount, order), reply);
  }

  /** A refund request naming an order the store has goes straight to the refund decision with it. */
  lemma NamedOrderReachesDecision(s: State, st: Store, reply: OracleReply, id: string, order: Order)
    requires Fresh(s) && s.intent == RefundRequest
    requires ExtractOrderId(s.message) == Some(id) && GetOrder(st, id) == Ok(Some(order))
    ensures order.orderId == id
    ensures RunGraph(s, st, reply) ==
      RefundDecision(s.(orderId := Some(id), orderData := Some(order), refundAmount := RefundAmountFor(s.refundAmount, order)), st, reply)
  {
    FetchOrderFindsNamedOrder(s, st, order);
  }

  /**
   * The converse of the resolved-refund outcome: a named, refundable order, an
   * image, an approving oracle and a reachable customer give a resolved request
   * whose only write is the customer's new balance, old + refund amount.
   */
  lemma ApprovalCreditsWallet(st: Store, message: string, customerId: string, caseId: string, image: Option<Image>, amount: Option<real>, reply: OracleReply, id: string, order: Order)
    requires ExtractOrderId(message) == Some(id)
    requires GetOrder(st, id) == Ok(Some(order)) && order.status != "cancelled"
    requires GetOrderPaymentOp !in st.faults && !Refunded(GetOrderPayment(st, id).value)
    requires HasImage(image) && OracleApproves(reply)
    requires GetCustomerOp !in st.faults && UpdateWalletBalanceOp !in st.faults && customerId in st.customers
    requires RefundAmountFor(amount, order).Some?
    ensures var o := ProcessRequest(st, RefundRequest, message, customerId, caseId, image, amount, reply);
      && o.result.Ok?
      && o.result.value.status == Resolved
      && OnlyWalletOf(st, o.store, customerId)
      && o.store.customers[customerId].walletBalance == st.customers[customerId].walletBalance + RefundAmountFor(amount, order).value
  {
    var s := Initial(RefundRequest, message, customerId, caseId, image, amount);
    NamedOrderReachesDecision(s, st, reply, id, order);
    ApprovedDecisionCredits(s, st, reply, id, order);
    Answered(st, RefundRequest, message, customerId, caseId, image, amount, reply);
  }

  /**
   * Nothing makes a refund request idempotent: the same approved request sent
   * twice credits the wallet twice.
   */
  lemma RepeatedApprovalCreditsTwice(st: Store, message: string, customerId: string, firstCase: string, secondCase: string, image: Option<Image>, amount: Option<real>, reply: OracleReply, id: string, order: Order)
    requires ExtractOrderId(message) == Some(id)
    requires GetOrder(st, id) == Ok(Some(order)) && order.status != "cancelled"
    requires GetOrderPaymentOp !in st.faults && !Refunded(GetOrderPayment(st, id).value)
    requires HasImage(image) && OracleApproves(reply)
    requires GetCustomerOp !in st.faults && UpdateWalletBalanceOp !in st.faults && customerId in st.customers
    requires RefundAmountFor(amount, order).Some?
    ensures var o1 := ProcessRequest(st, RefundRequest, message, customerId, firstCase, image, amount, reply);
      var o2 := ProcessRequest(o1.store, RefundRequest, message, customerId, secondCase, image, amount, reply);
      && o2.result.Ok? && o2.result.value.status == Resolved
      && customerId in o2.store.customers
      && o2.store.customers[customerId].walletBalance == st.customers[customerId].walletBalance + 2.0 * RefundAmountFor(amount, order).value
  {
    ApprovalCreditsWallet(st, message, customerId, firstCase, image, amount, reply, id, order);
    var st1 := ProcessRequest(st, RefundRequest, message, customerId, firstCase, image, amount, reply).store;
    assert st1.orders == st.orders && st1.payments == st.payments && st1.faults == st.faults;
    assert GetOrder(st1, id) == GetOrder(st, id);
    assert GetOrderPayment(st1, id) == GetOrderPayment(st, id);
    ApprovalCreditsWallet(st1, message, customerId, secondCase, image, amount, reply, id, order);
  }

  /**
   * A refundable order and an image but a confidence below the threshold:
   * escalated with one escalation that carries the order id, the refund
   * amount and the verdict; the wallet is untouched. The verdict is "analysis
   * inconclusive" with the clamped confidence, unless the reply lacks its
   * status or message key, which makes it a parsing error.
   */
  lemma LowConfidenceRecordsVerdict(st: Store, message: string, customerId: string, caseId: string, image: Option<Image>, amount: Option<real>, reply: OracleReply, id: string, order: Order)
    requires ExtractOrderId(message) == Some(id)
    requires GetOrder(st, id) == Ok(Some(order)) && order.status != "cancelled"
    requires GetOrderPaymentOp !in st.faults && !Refunded(GetOrderPayment(st, id).value)
    requires HasImage(image) && AddEscalationOp !in st.faults
    requires reply.Reply? && reply.confidence.Some? && reply.confidence.value.Numeric?
    requires reply.confidence.value.number.Finite? && reply.confidence.value.number.value < ApprovalThreshold
    ensures var o := ProcessRequest(st, RefundRequest, message, customerId, caseId, image, amount, reply);
      && o.result.Ok? && o.result.value.status == Escalated
      && o.result.value.validation.Some?
      && o.store.customers == st.customers
      && |o.store.escalations| == |st.escalations| + 1
      && o.store.escalations[|st.escalations|].details
         == RefundValidationEscalated(message, Some(id), RefundAmountFor(amount, order), o.result.value.validation.value)
      && (!reply.status.Absent? && !reply.message.Absent? ==>
            var conf := Clamp(reply.confidence.value.number);
            && o.result.value.validation.value.message == AnalysisInconclusive(conf)
            && o.result.value.validation.value.confidence == conf
            && o.result.value.message == AnalysisInconclusive(conf))
      && (reply.status.Absent? || reply.message.Absent? ==> o.result.value.validation == Some(ParsingVerdict))
  {
    var s := Initial(RefundRequest, message, customerId, caseId, image, amount);
    FetchOrderFindsNamedOrder(s, st, order);
    var t := FetchOrder(s, st).result.value;
    assert Route(t) == ToRefundDecision;
    assert order.orderId == id;
    LowConfidenceEscalates(st, customerId, id, image, t.refundAmount, reply);
    var c := ValidateRefund(st, customerId, id, image, t.refundAmount, reply);
    assert c.result.Ok? && c.result.value.status == Escalated && c.store == st;
    var r := RefundDecision(t, st, reply);
    assert r.result.Ok? && r.result.value.validation == Some(c.result.value);
  }

  /**
   * A fault in the wallet update is not a workflow fault: the validator turns
   * it into a technical-error verdict, which is escalated like any other, and
   * the wallet is left as it was.
   */
  lemma WalletFaultIsEscalatedVerdict(st: Store, message: string, customerId: string, caseId: string, image: Option<Image>, amount: Option<real>, reply: OracleReply)
    requires UpdateWalletBalanceOp in st.faults && AddEscalationOp !in st.faults
    requires GetOrderPaymentOp !in st.faults && GetCustomerOp !in st.faults && customerId in st.customers
    requires ExtractOrderId(message).Some?
    requires var order := GetOrder(st, ExtractOrderId(message).value);
      && order.Ok? && order.value.Some? && order.value.value.status != "cancelled"
      && RefundAmountFor(amount, order.value.value).Some?
    requires !Refunded(GetOrderPayment(st, ExtractOrderId(message).value).value)
    requires HasImage(image) && OracleApproves(reply)
    ensures var o := ProcessRequest(st, RefundRequest, message, customerId, caseId, image, amount, reply);
      && o.result.Ok?
      && o.result.value.status == Escalated
      && o.result.value.validation == Some(TechnicalVerdict(st.faults[UpdateWalletBalanceOp]))
      && o.result.value.error.None?
      && o.store.customers == st.customers
      && AppendsEscalation(st, o.store, caseId, customerId)
  {
    ApprovalMatchesReply(reply);
  }

  /**
   * An order whose total is stored as null, and no usable amount given: the
   * refund amount is `None`, adding it to the balance raises TypeError, and
   * an approved refund ends as an escalated technical-error verdict with the
   * wallet untouched.
   */
  lemma NullTotalEscalates(st: Store, message: string, customerId: string, caseId: string, image: Option<Image>, amount: Option<real>, reply: OracleReply)
    requires IsFalsy(amount)
    requires GetOrderPaymentOp !in st.faults && GetCustomerOp !in st.faults && AddEscalationOp !in st.faults
    requires customerId in st.customers
    requires ExtractOrderId(message).Some?
    requires var order := GetOrder(st, ExtractOrderId(message).value);
      order.Ok? && order.value.Some? && order.value.value.status != "cancelled" && order.value.value.totalAmount.Null?
    requires !Refunded(GetOrderPayment(st, ExtractOrderId(message).value).value)
    requires HasImage(image) && OracleApproves(reply)
    ensures var o := ProcessRequest(st, RefundRequest, message, customerId, caseId, image, amount, reply);
      && o.result.Ok?
      && o.result.value.status == Escalated
      && o.result.value.validation == Some(TechnicalVerdict(NoAmountError))
      && o.store.customers == st.customers
      && AppendsEscalation(st, o.store, caseId, customerId)
  {
    ApprovalMatchesReply(reply);
  }

  /** Any fault inside the graph becomes an escalation of the same case carrying the fault's text. */
  lemma FaultBecomesEscalation(st: Store, intent: Intent, message: string, customerId: string, caseId: string, image: Option<Image>, amount: Option<real>, reply: OracleReply)
    requires AddEscalationOp !in st.faults
    requires RunGraph(Initial(intent, message, customerId, caseId, image, amount), st, reply).result.Fault?
    ensures var e := RunGraph(Initial(intent, message, customerId, caseId, image, amount), st, reply).result.error;
      var o := ProcessRequest(st, intent, message, customerId, caseId, image, amount, reply);
      && o.result == Ok(Response(Escalated, WorkflowTechnicalIssue, caseId, None, None, Some(e)))
      && o.store == st.(escalations := st.escalations + [Escalation(caseId, customerId, WorkflowError(e, message), EscalationPending)])
  {
  }

  /** Every intent but refunds, when the customer record is missing: `error`, and nothing written. */
  lemma OtherIntentMissingCustomer(st: Store, intent: Intent, message: string, customerId: string, caseId: string, image: Option<Image>, amount: Option<real>, reply: OracleReply)
    requires intent != RefundRequest
    requires GetCustomerOp !in st.faults && customerId !in st.customers
    ensures var o := ProcessRequest(st, intent, message, customerId, caseId, image, amount, reply);
      o.result == Ok(Response(Error, CustomerMissing, caseId, None, None, None)) && o.store == st
  {
  }

  /** The handler's part of the lemma below. */
  lemma PaymentHandlerEscalatesOnFailures(s: State, st: Store)
    requires s.intent == WalletIssue || s.intent == PaymentProblem
    requires GetCustomerOp !in st.faults && GetFailedPaymentsOp !in st.faults && AddEscalationOp !in st.faults
    requires s.customerId in st.customers
    ensures var r := HandleOtherIntents(s, st);
      && r.result.Ok?
      && (r.result.value.status == Escalated <==>
            exists p :: p in st.payments && p.customerId == s.customerId && p.status == "failed")
      && (r.result.value.status != Escalated ==> r.result.value.status == Resolved && r.store == st)
  {
    var failed := GetFailedPayments(st, s.customerId).value;
    if |failed| > 0 {
      assert failed[0] in failed;
    }
    var customer := GetCustomer(st, s.customerId).value.value;
    if s.intent == WalletIssue {
      assert HandleOtherIntents(s, st) == CheckPayments(s, st, WalletBalanceIs(customer.walletBalance));
    } else {
      assert HandleOtherIntents(s, st) == CheckPayments(s, st, NoPaymentIssues);
    }
  }

  /** WALLET_ISSUE and PAYMENT_PROBLEM escalate exactly when the customer has a failed payment. */
  lemma PaymentIntentsEscalateOnFailures(st: Store, intent: Intent, message: string, customerId: string, caseId: string, image: Option<Image>, amount: Option<real>, reply: OracleReply)
    requires intent == WalletIssue || intent == PaymentProblem
    requires GetCustomerOp !in st.faults && GetFailedPaymentsOp !in st.faults && AddEscalationOp !in st.faults
    requires customerId in st.customers
    ensures var o := ProcessRequest(st, intent, message, customerId, caseId, image, amount, reply);
      && o.result.Ok?
      && (o.result.value.status == Escalated <==>
            exists p :: p in st.payments && p.customerId == customerId && p.status == "failed")
      && (o.result.value.status != Escalated ==> o.result.value.status == Resolved && o.store == st)
  {
    var s := Initial(intent, message, customerId, caseId, image, amount);
    PaymentHandlerEscalatesOnFailures(s, st);
    assert RunGraph(s, st, reply) == HandleOtherIntents(s, st);
    Answered(st, intent, message, customerId, caseId, image, amount, reply);
  }

  /**
   * DELIVERY_ISSUE and ORDER_STATUS: resolved when the named order exists,
   * escalated when it does not, and left `Pending` with nothing written when
   * the message names no order.
   */
  lemma OrderIntentsOutcome(st: Store, intent: Intent, message: string, customerId: string, caseId: string, image: Option<Image>, amount: Option<real>, reply: OracleReply)
    requires intent == DeliveryIssue || intent == OrderStatus
    requires GetCustomerOp !in st.faults && GetOrderOp !in st.faults && AddEscalationOp !in st.faults
    requires customerId in st.customers
    ensures var o := ProcessRequest(st, intent, message, customerId, caseId, image, amount, reply);
      && o.result.Ok?
      && (ExtractOrderId(message).None? ==> o.result.value.status == Pending && o.store == st)
      && (ExtractOrderId(message).Some? ==>
            var order := GetOrder(st, ExtractOrderId(message).value).value;
            && (order.Some? ==>
                  && o.result.value.status == Resolved && o.store == st
                  && o.result.value.message == OrderStatusIs(ExtractOrderId(message).value, order.value.status, order.value.expectedDelivery))
            && (order.None? ==> o.result.value.status == Escalated && AppendsEscalation(st, o.store, caseId, customerId)))
  {
  }

  /** Any label outside the five named ones is escalated for manual review. */
  lemma UnknownIntentEscalates(st: Store, name: string, message: string, customerId: string, caseId: string, image: Option<Image>, amount: Option<real>, reply: OracleReply)
    requires name !in KnownLabels
    requires GetCustomerOp !in st.faults && AddEscalationOp !in st.faults
    requires customerId in st.customers
    ensures var o := ProcessRequest(st, OtherIntent(name), message, customerId, caseId, image, amount, reply);
      && o.result == Ok(Response(Escalated, NeedsManualReview, caseId, None, None, None))
      && o.store == st.(escalations := st.escalations + [Escalation(caseId, customerId, CustomerText(message), EscalationPending)])
  {
  }
}

=== FILE: wrappers.dfy ===
/** Optional values and the outcome of a call that may raise. */
module Wrappers {

  /** A value that may be absent (Python's `None`). */
  datatype Option<+T> = None | Some(value: T) {

    /** The value, or `default` when absent (Python's `d.get(key, default)`). */
    function GetOr(default: T): T {
      match this
      case Some(v) => v
      case None => default
    }
  }

  /** A key of a decoded JSON object or stored document: missing, present with `null`, or present with a value. */
  datatype Field<+T> = Absent | Null | Present(value: T)

  /** The outcome of a call that may raise: its value, or the text of the exception. */
  datatype Res<+T> = Ok(value: T) | Fault(error: string)
}
